=== FILE: README.md ===
# apsisd block layer, modelled in Dafny

Apsis is a content-addressed store: uploads are encoded into encrypted
ERIS blocks, each block is kept in a local RocksDB store under its 32-byte
BLAKE2b-256 reference and announced on the BitTorrent Mainline DHT, and
blocks a node lacks are fetched from peers the DHT names. The ERIS codec
itself lives in an external crate. This project models the daemon's own
logic around it:

- **Block-reference helpers** (`Utils`, `Base32`): the raw-block URN
  `"urn:"` + unpadded RFC 4648 base32 (section 6 alphabet, padding omitted as
  section 3.2 allows), its decoder, the truncation of a reference to a
  160-bit DHT id (BEP 5), and the URL a peer is asked for a block at.
- **Peer fetch** (`Fetch`): `fetch_block` with its three lookup rounds, its
  batches of peers, the optional hash check, and its errors. The DHT lookup
  rounds, the network's replies and the hash are parameters. The nested
  loops are proved equal to a flat scan over the candidate peers in lookup
  order.
- **Block store** (`Store`): the RocksDB wrapper as a map. Whether reads
  fail, and which write attempts fail, are inputs, so a run of writes can
  stop part way.
- **HTTP handlers** (`Api`, `Http`): the `read_block` and `write_block`
  closures, the upload block-size choice, the Content-Type dispatch, and the
  download query and Accept dispatch.
- **Authorization** (`Server`): the `authenticate` middleware, with its
  constant-time token comparison, and the route table it is layered on.

`read_block` neither stores nor announces a block it fetched from a peer.
Concurrent fetches of one reference are not de-duplicated. A transport error
from any peer ends the whole fetch instead of moving on to the next peer.
The model follows the code.

Two consequences of the code are proved rather than assumed:

- No routed path (`/uri-res/N2R`, `/uri-res/R2N`) is one of the URIs the
  middleware guards (`/content`, `/content/`). Every request on a routed
  path therefore gets past the middleware whatever Authorization header it
  carries (`Server.RoutesAreUnguarded`).
- Content-Type is matched by prefix but Accept exactly. Any header text
  that strictly extends `application/json` is classified as JSON and handed
  to the JSON extractor, but gets 404 as an Accept value
  (`Api.JsonPrefixSplitsDispatches`). The extractor itself, which may still
  refuse the request, is a parameter.

## Model

| member | source | states |
|---|---|---|
| `Utils.TryRefToId` | crates/apsisd/src/utils.rs:29-32 | never fails on a 32-byte reference; the id is exactly the reference's first 20 bytes |
| `Utils.SameIdIffSamePrefix` | crates/apsisd/src/utils.rs:29-32 | two references map to the same DHT id if and only if their 20-byte prefixes agree |
| `Base32.Encode` | crates/apsisd/src/utils.rs:46-47 | the encoding of `n` bytes has ceil(8n/5) symbols, all from `A`-`Z2`-`7` |
| `Base32.Decode` | crates/apsisd/src/utils.rs:35-37 | succeeds exactly when every character is in the alphabet, and then yields floor(5n/8) bytes |
| `Base32.RoundTrip` | crates/apsisd/src/utils.rs:35-47 | decoding an encoding returns the original bytes, for inputs of every length |
| `Utils.RefToUrn` | crates/apsisd/src/utils.rs:45-49 | the URN is `"urn:"` followed by 52 base32 symbols |
| `Utils.DecodedLengthIs32` | crates/apsisd/src/utils.rs:38 | the conversion to a 32-byte array succeeds exactly when the base32 text has 52 symbols |
| `Utils.UrnToRef` | crates/apsisd/src/utils.rs:34-43 | `None` when there is no `"urn:"`, when the rest after the first `"urn:"` is not base32, or when it does not decode to exactly 32 bytes; otherwise the decoded reference |
| `Utils.UrnRoundTrip` | crates/apsisd/src/utils.rs:34-49 | `urn_to_ref(ref_to_urn(r)) == Some(r)` for every reference |
| `Utils.UrnIgnoresLeadingText` | crates/apsisd/src/utils.rs:36-37 | text before the first `"urn:"` does not affect the result |
| `Utils.PeerUrlNamesBlock` | crates/apsisd/src/utils.rs:51-58 | the query of a peer URL is exactly the block's URN, and `urn_to_ref` of the URL gives the block's reference |
| `Utils.PeerToUrl` | crates/apsisd/src/utils.rs:51-58 | the request URL is an `http://` URL; which peer and which block it names is stated by `Utils.PeerToUrlInjective` and `Utils.PeerUrlNamesBlock` |
| `Utils.PeerToUrlInjective` | crates/apsisd/src/utils.rs:51-58 | a peer URL determines both the peer's address and port and the block: equal URLs come from the same peer and the same block |
| `Text.DecimalSplit` | crates/apsisd/src/utils.rs:52-57 | a decimal field followed by a non-digit separator is read off unambiguously: equal texts give equal numbers and equal remainders |
| `Text.Decimal` | crates/apsisd/src/utils.rs:52-57 | a port or address octet is written as decimal digits without leading zeros |
| `Text.DecimalRoundTrip` | crates/apsisd/src/utils.rs:52-57 | the decimal text of a port or octet reads back as exactly that number |
| `Fetch.TryPeers` | crates/apsisd/src/utils.rs:83-92 | the peer loop returns only candidates that pass the check, and ends with a transport error or an accepted candidate, or moves on |
| `Fetch.TryBatches` | crates/apsisd/src/utils.rs:82-93 | the batch loop keeps the same guarantees across all batches of one lookup |
| `Fetch.Rounds` | crates/apsisd/src/utils.rs:79-97 | with the round bound as a parameter (`MAX_PEER_RETRIES`, 3, in `fetch_block`): at most that many lookups; `BlockNotFound` only after every round; returned bytes pass the check |
| `Fetch.FetchBlock` | crates/apsisd/src/utils.rs:71-98 | fails with `BlockNotFound` before any lookup or request when the DHT is not bootstrapped; at most three lookups; with `check` every `Ok` result hashes to the reference |
| `Fetch.ScanMeaning` | crates/apsisd/src/utils.rs:82-92 | reference definition: the first acceptable body or transport error among the candidates in order, with every earlier candidate a rejected body |
| `Fetch.FetchFollowsCandidates` | crates/apsisd/src/utils.rs:79-97 | the nested loops give the same result and the same request sequence as the flat scan over the candidates of the three lookup rounds |
| `Fetch.FallbackAfterCorruptPeer` | crates/apsisd/src/utils.rs:85-91 | a first peer whose bytes hash wrongly is skipped, and the second peer's verified bytes are returned after exactly two requests |
| `Fetch.TransportErrorAborts` | crates/apsisd/src/utils.rs:84 | a transport error from the first peer ends the fetch with that error after one request, with no fallback |
| `Fetch.NoPeersNoBlock` | crates/apsisd/src/utils.rs:79-97 | lookups naming no peer end in `BlockNotFound` after three lookups and no request |
| `Fetch.RequestsNameBlock` | crates/apsisd/src/utils.rs:81-84 | the i-th request goes to the i-th candidate peer and its URL names the fetched reference |
| `Store.ReadBlock` | crates/apsisd/src/db.rs:41-43 | a database error, or the stored block exactly when the reference is present |
| `Store.WriteBlock` | crates/apsisd/src/db.rs:35-39 | on success stores the block under its reference and returns its length; on failure leaves the blocks as they were; each attempt can fail on its own |
| `Store.ReadYourWrite` | crates/apsisd/src/db.rs:35-43 | a written block is read back, and other references are untouched |
| `Api.ReadBlock` | crates/apsisd/src/api.rs:198-209 | a local hit returns the stored bytes; a read error fails with no fetch; a miss delegates to the checked fetch; every `Ok` is the stored block or hashes to the reference; no store write and no announcement |
| `Api.LocalReadIgnoresRemote` | crates/apsisd/src/api.rs:199-204 | on a local hit or a read error the DHT and network are not consulted |
| `Api.WriteBlock` | crates/apsisd/src/api.rs:118-133 | returns the store write's result (the block length on success) and always queues one announcement of the block's DHT id, even when the write fails; the read fault, the failing attempts, the DHT and the hash are unchanged |
| `Api.WriteBlocks` | crates/apsisd/src/api.rs:118-133 | the encoder's writes of its blocks succeed, counted, exactly when none of their attempts fails; otherwise the result is the write error |
| `Api.SucceedFromMeaning` | crates/apsisd/src/db.rs:35-39 | the recursive success check covers exactly the attempt numbers in its range |
| `Api.WriteBlocksSucceed` | crates/apsisd/src/api.rs:118-133 | when every write succeeds, the store is the old one with each block put in turn |
| `Api.WriteBlocksAnnounce` | crates/apsisd/src/api.rs:118-133 | when every write succeeds, every block's DHT id is announced, in order |
| `Api.WriteBlocksFailAt` | crates/apsisd/src/api.rs:118-133 | when a write fails, it is the first failing attempt among the blocks' writes |
| `Api.WriteBlocksFailStore` | crates/apsisd/src/api.rs:118-133 | when write `k` fails, the store is the old one with blocks `0..k-1` put in turn |
| `Api.WriteBlocksFailAnnounce` | crates/apsisd/src/api.rs:118-133 | when write `k` fails, the DHT ids of blocks `0..k` are announced, in order, the failed one included |
| `Api.SecondWriteFails` | crates/apsisd/src/api.rs:118-133 | an upload can fail part way: when the second write fails, the first block stays stored and both blocks are announced |
| `Api.WriteBlocksStores` | crates/apsisd/src/api.rs:118-133 | after successful writes the store holds the old blocks and the emitted ones: each emitted reference maps to its last block, every other reference keeps its old block, and no other reference appears |
| `Api.AppliedKeys` | crates/apsisd/src/api.rs:118-133 | putting blocks in turn adds exactly their references to the store |
| `Api.AppliedKeep` | crates/apsisd/src/api.rs:118-133 | putting blocks in turn leaves every stored reference that no block carries with its old block |
| `Api.AppliedLast` | crates/apsisd/src/api.rs:118-133 | after putting blocks in turn, a reference holds the last block put under it |
| `Api.AnnounceOutcomeIgnored` | crates/apsisd/src/api.rs:126-132 | whether the announcement would succeed changes neither the result nor the store |
| `Api.ReadAfterWrite` | crates/apsisd/src/api.rs:198-204 | a block written successfully is read back from the store without the DHT |
| `Api.JsonBlockSize` | crates/apsisd/src/api.rs:134-139 | 1 KiB blocks exactly when the serialised JSON is under 1000 bytes, which then fits a single 1 KiB block |
| `Api.UploadInput` | crates/apsisd/src/api.rs:134-188 | JSON is encoded with the size chosen from its length; multipart files always with 1 KiB blocks; a missing or unreadable field gets 422 |
| `Api.UploadBlockSize` | crates/apsisd/src/api.rs:135-139 | an upload is encoded with 32 KiB blocks if and only if it is JSON of at least 1000 bytes |
| `Api.ResourceToName` | crates/apsisd/src/api.rs:110-190 | the resulting node is the one the encoder's block writes leave; 201 with the capability URN exactly when the upload is readable, the encoder succeeds and every block write succeeds, and then the store is the old one with every emitted block put in turn and every block announced in order; a failed write gives 422, with the write error as the message of a JSON upload; an unreadable upload gets 422 and touches nothing |
| `Api.UploadedBlocksReadBack` | crates/apsisd/src/api.rs:118-133 | after a 201 every emitted block is read back from the store without the DHT: the last block written under its reference |
| `Api.FileUploadsUseSmallBlocks` | crates/apsisd/src/api.rs:164-169 | a multipart field of any size is encoded with 1 KiB blocks, and succeeds exactly when that encoding and its block writes do |
| `Api.ClassifyContentType` | crates/apsisd/src/api.rs:67-87 | `Json` if and only if a textual Content-Type starts with `application/json`; `File` if and only if it starts with `multipart/form-data`; otherwise, including a missing or non-text header, unsupported |
| `Api.ContentFromRequest` | crates/apsisd/src/api.rs:66-88 | unsupported content types get 415; otherwise the matching extractor's result is passed through |
| `Api.JsonPrefixSplitsDispatches` | crates/apsisd/src/api.rs:72 | every header text strictly extending `application/json` is classified as JSON, so it goes to the JSON extractor, and gets 404 as an Accept value |
| `Api.AcceptResponse` | crates/apsisd/src/api.rs:214-232 | Accept `application/json` gives parsed JSON or 422; `application/octet-stream` gives the raw bytes; any other or missing Accept gives 404 |
| `Api.OctetStreamOnlyDownloads` | crates/apsisd/src/api.rs:226 | the exact `application/octet-stream` Accept value selects the raw bytes, while the same text is no supported upload Content-Type |
| `Api.NameToResource` | crates/apsisd/src/api.rs:193-253 | a read capability is decoded and answered by Accept, or 404; otherwise a block URN returns the single block, or 404 if reading fails; otherwise 422 `Invalid capability.` |
| `Api.RawBlockIntegrity` | crates/apsisd/src/api.rs:240-245 | a raw block response is the locally stored block or bytes that hash to the requested reference |
| `Api.ServesHeldBlock` | crates/apsisd/src/api.rs:240-245 | a node holding a block answers the request `peer_to_url` builds for it with exactly the stored bytes |
| `Server.CtEqIsEquality` | crates/apsisd/src/main.rs:116 | the constant-time comparison of header and token bytes is plain equality |
| `Server.Authenticate` | crates/apsisd/src/main.rs:101-121 | URIs other than `/content` and `/content/` pass without looking at the header; guarded URIs pass if and only if the header is present, is text, and equals the token byte for byte; otherwise 401 |
| `Server.UnpresentableTokenLocksOut` | crates/apsisd/src/main.rs:110-116 | a token containing a byte that is not visible ASCII can never match, so guarded URIs always get 401 |
| `Server.Route` | crates/apsisd/src/main.rs:196-198 | GET and HEAD on `/uri-res/N2R` reach `name_to_resource`, POST on `/uri-res/R2N` reaches `resource_to_name`; another method on either path is a wrong method; every other path has no route |
| `Server.Admit` | crates/apsisd/src/main.rs:196-200 | the middleware runs for every request on a routed path, wrong methods included, and for no other; a request reaches its handler, or gets 405 for a wrong method, if and only if it passes the middleware |
| `Server.PeerRequestsReachHandler` | crates/apsisd/src/main.rs:197 | a GET on the raw-block path that `peer_to_url` builds is routed to `name_to_resource` |
| `Server.RoutesAreUnguarded` | crates/apsisd/src/main.rs:106-109 | no routed path's URI is guarded, so every request on a routed path reaches its handler, or 405, whatever its Authorization header |

## Left out

- ERIS (`encode`, `decode`, `ReadCapability::from_urn`/`to_urn`, `BlockSize`) is an external crate. Encoding, URN parsing and decoding are parameters of the model. Decoding sees blocks only through the `read_block` closure it is given.
- BLAKE2b-256 is an uninterpreted function from bytes to a 32-byte reference. The keyed variant is never used by the modelled code.
- Base32.Decode: the external base32 crate is not part of this model. The model accepts only the upper-case RFC 4648 alphabet without `=`, so it may reject strings the crate's decoder would accept. Like the crate, it drops leftover bits without checking them.
- Utils.UrnToRef: it decodes with `Base32.Decode`, so a block URN whose base32 text is lower case or padded with `=` gives `None` here, where the crate's decoder may accept it.
- The RocksDB failure causes are not modelled. Which write attempts fail is an input: a set of attempt numbers, with a count of the attempts made.
- The DHT client, the HTTP client and their timing are parameters. A lookup round is a function of the id and the round number. A request's reply is a function of its position in the fetch and its URL.
- The announcement task spawned by `write_block` is recorded in a list of announced ids. Its execution and the task tracker are not modelled.
- The convergence secret drawn from the random generator for each upload is a parameter. Uploads are not claimed to be deterministic.
- Server.Authenticate: the `http` crate's comparison of a `Uri` with a string is modelled as equality of the origin-form text (path, then `?` and query). Absolute-form URIs, an empty query and fragments are not modelled.
- Server.Admit: axum's 404 for an unrouted path and 405 for a wrong method are kept apart, but the 405 response's `Allow` header is not modelled.
- Server.Route: a HEAD request runs the GET handler; axum's removal of the response body for HEAD is not modelled.
- Api.ResourceToName: the ERIS encoder is an external crate. The model assumes it hands each block to `write_block` in order and stops at the first failed write. The 422 text after a failed write of a JSON upload is taken to be the closure's own message; the encoder's rendering of that error is not modelled.
- JSON parsing and serialisation (serde) are parameters or inputs. The JSON upload is given by its serialised bytes.
- Startup (configuration merging, telemetry, database opening, listener binding, signal handling) is process plumbing.
- The command-line client (crates/apsisctl/src/main.rs) only joins URLs and does I/O.
- The error enum is reduced to the variants the modelled code produces.

=== FILE: api.dfy ===
/** The HTTP handlers of the daemon (crates/apsisd/src/api.rs): the block
    closures handed to the ERIS codec, the upload block-size choice, the
    Content-Type dispatch of uploads, and the query and Accept dispatch of
    downloads. The ERIS codec itself is a parameter. */
module Api {
  import opened Wrappers
  import opened Errors
  import opened Bytes
  import opened Text
  import opened Utils
  import opened Fetch
  import opened Store
  import opened Http

  /** The handler state: block store, DHT and network, the hash the fetch
      checks with, and the DHT announcements spawned so far (fire-and-forget
      tasks, whose outcome nobody reads). */
  datatype Node = Node(db: Db, remote: Remote, hash: Hasher, announced: seq<Id>)

  /** The `read_block` closure of `name_to_resource`: the local store first,
      a verified remote fetch on a miss. It returns no new node: a fetched
      block is neither stored nor announced. */
  function ReadBlock(node: Node, reference: Reference): (r: Result<seq<byte>, ErrorKind>)
    ensures node.db.readFault ==> r == Err(Io(ReadFailed))
    ensures !node.db.readFault && reference in node.db.blocks ==> r == Ok(node.db.blocks[reference])
    ensures !node.db.readFault && reference !in node.db.blocks ==>
              var f := FetchBlock(reference, node.remote, node.hash, true);
              && (r.Ok? <==> f.result.Ok?)
              && (r.Ok? ==> r.value == f.result.value)
              && (r.Err? ==> r.error == Io(FetchFailed))
    ensures r.Ok? ==> (reference in node.db.blocks && node.db.blocks[reference] == r.value)
                      || node.hash(r.value) == reference
  {
    match Store.ReadBlock(node.db, reference)
    case Err(_) => Err(Io(ReadFailed))
    case Ok(Some(block)) => Ok(block)
    case Ok(None) =>
      match FetchBlock(reference, node.remote, node.hash, true).result
      case Ok(block) => Ok(block)
      case Err(_) => Err(Io(FetchFailed))
  }

  /** A local hit or a failing local read never consults the DHT or the
      network: any other remote gives the same answer. */
  lemma LocalReadIgnoresRemote(node: Node, reference: Reference, other: Remote)
    requires node.db.readFault || reference in node.db.blocks
    ensures ReadBlock(node.(remote := other), reference) == ReadBlock(node, reference)
  {
  }

  /** A block and its reference, as the ERIS encoder hands them out. */
  datatype BlockWithReference = BlockWithReference(reference: Reference, block: seq<byte>)

  /** What the `write_block` closure returns, and the node after it. */
  datatype Written = Written(result: Result<nat, ErrorKind>, node: Node)

  /** The `write_block` closure of `resource_to_name`: store the block, then
      spawn its DHT announcement, whether or not the store write succeeded. */
  function WriteBlock(node: Node, b: BlockWithReference): (w: Written)
    ensures w.result.Ok? <==> !NextWriteFails(node.db)
    ensures w.result.Ok? ==> w.result.value == |b.block|
                             && w.node.db.blocks == node.db.blocks[b.reference := b.block]
    ensures w.result.Err? ==> w.result.error == Io(WriteFailed) && w.node.db.blocks == node.db.blocks
    ensures w.node.announced == node.announced + [Id(b.reference[..IdLength])]
    ensures w.node.db.writes == node.db.writes + 1
    ensures w.node.db.readFault == node.db.readFault && w.node.db.failingWrites == node.db.failingWrites
    ensures w.node.remote == node.remote && w.node.hash == node.hash
  {
    var (stored, db') := Store.WriteBlock(node.db, b.reference, b.block);
    var res := match stored case Ok(n) => Ok(n) case Err(_) => Err(Io(WriteFailed));
    var id := TryRefToId(b.reference).value;
    Written(res, node.(db := db', announced := node.announced + [id]))
  }

  /** The announcement is fire-and-forget: whether the DHT would accept it
      does not change what the closure returns or stores. */
  lemma AnnounceOutcomeIgnored(node: Node, b: BlockWithReference, announce: Id -> bool)
    ensures var other := node.(remote := node.remote.(dht := node.remote.dht.(announce := announce)));
            && WriteBlock(other, b).result == WriteBlock(node, b).result
            && WriteBlock(other, b).node.db == WriteBlock(node, b).node.db
  {
  }

  /** A block written successfully is read back locally, without the DHT. */
  lemma ReadAfterWrite(node: Node, b: BlockWithReference)
    requires !NextWriteFails(node.db) && !node.db.readFault
    ensures ReadBlock(WriteBlock(node, b).node, b.reference) == Ok(b.block)
  {
    var w := WriteBlock(node, b);
    assert w.node.db.blocks[b.reference] == b.block;
    assert !w.node.db.readFault;
  }

  // ---------------------------------------------------------------------
  // Uploads
  // ---------------------------------------------------------------------

  /** The two ERIS block sizes. */
  datatype BlockSize = Size1KiB | Size32KiB

  function SizeInBytes(s: BlockSize): nat {
    match s
    case Size1KiB => 1024
    case Size32KiB => 32768
  }

  /** Serialised JSON shorter than this is encoded with 1 KiB blocks. */
  const SmallJsonLimit: nat := 1000

  /** The block size for a JSON upload of the given serialisation. */
  function JsonBlockSize(serialized: seq<byte>): (s: BlockSize)
    ensures s == Size1KiB <==> |serialized| < SmallJsonLimit
    ensures s == Size1KiB ==> |serialized| < SizeInBytes(s)
  {
    if |serialized| < SmallJsonLimit then Size1KiB else Size32KiB
  }

  /** The first field of a multipart form, as far as the handler gets with it. */
  datatype FormField =
    | NoField          // `next_field` failed or the form has no field
    | UnreadableField  // the field's bytes could not be read
    | Field(bytes: seq<byte>)

  /** The request body the upload handler receives. */
  datatype Content = JsonBody(serialized: seq<byte>) | FileBody(field: FormField)

  /** What the ERIS encoder does with an upload: the blocks it hands to the
      `write_block` closure, in order, and then the capability's URN, or an
      error message of its own. */
  datatype Encoding = Encoding(blocks: seq<BlockWithReference>, urn: Result<string, string>)

  /** The ERIS encoder: the bytes, the 32-byte convergence secret and the
      block size determine the blocks and the outcome. */
  type Encoder = (seq<byte>, seq<byte>, BlockSize) -> Encoding

  /** Some emitted block has reference `r`. */
  predicate Emitted(blocks: seq<BlockWithReference>, r: Reference) {
    exists i :: 0 <= i < |blocks| && blocks[i].reference == r
  }

  /** No later block has the reference of block `i`. */
  predicate LastWith(blocks: seq<BlockWithReference>, i: nat)
    requires i < |blocks|
  {
    forall j :: i < j < |blocks| ==> blocks[j].reference != blocks[i].reference
  }

  /** The DHT ids of the blocks, in order. */
  function BlockIds(blocks: seq<BlockWithReference>): (ids: seq<Id>)
    ensures |ids| == |blocks|
  {
    if |blocks| == 0 then [] else [Id(blocks[0].reference[..IdLength])] + BlockIds(blocks[1..])
  }

  /** Id `i` is the 20-byte prefix of block `i`'s reference. */
  lemma {:induction false} BlockIdsAt(blocks: seq<BlockWithReference>, i: nat)
    requires i < |blocks|
    ensures BlockIds(blocks)[i] == Id(blocks[i].reference[..IdLength])
    decreases |blocks|
  {
    if i > 0 {
      BlockIdsAt(blocks[1..], i - 1);
    }
  }

  /** The store map after putting each block in turn. */
  function Applied(m: map<Reference, seq<byte>>, blocks: seq<BlockWithReference>): map<Reference, seq<byte>>
    decreases |blocks|
  {
    if |blocks| == 0 then m else Applied(m[blocks[0].reference := blocks[0].block], blocks[1..])
  }

  /** No attempt among the `n` numbered from `start` on is a failing one. */
  predicate SucceedFrom(failing: set<nat>, start: nat, n: nat)
    decreases n
  {
    n == 0 || (start !in failing && SucceedFrom(failing, start + 1, n - 1))
  }

  /** The `n` write attempts starting from the next one all succeed. */
  predicate WritesSucceed(db: Db, n: nat) {
    SucceedFrom(db.failingWrites, db.writes, n)
  }

  /** `SucceedFrom` checks every attempt number in its range. */
  lemma {:induction false} SucceedFromMeaning(failing: set<nat>, start: nat, n: nat)
    ensures SucceedFrom(failing, start, n) <==> forall k :: start <= k < start + n ==> k !in failing
    decreases n
  {
    if n > 0 {
      SucceedFromMeaning(failing, start + 1, n - 1);
    }
  }

  /** `n` successful attempts are a successful next attempt followed by
      `n - 1` more, in any store state the attempt leaves. */
  lemma WritesSucceedStep(db: Db, db': Db, n: nat)
    requires n > 0 && db'.writes == db.writes + 1 && db'.failingWrites == db.failingWrites
    ensures WritesSucceed(db, n) <==> !NextWriteFails(db) && WritesSucceed(db', n - 1)
  {
  }

  /** Putting the first `k` blocks is putting the first block, then the
      next `k - 1`. */
  lemma AppliedPrefix(m: map<Reference, seq<byte>>, blocks: seq<BlockWithReference>, k: nat)
    requires 0 < k <= |blocks|
    ensures Applied(m, blocks[..k]) == Applied(m[blocks[0].reference := blocks[0].block], blocks[1..][..k - 1])
  {
    assert blocks[..k][1..] == blocks[1..][..k - 1];
  }

  /** The ids of the first `k` blocks are the first block's id, then the
      ids of the next `k - 1`. */
  lemma BlockIdsPrefix(blocks: seq<BlockWithReference>, k: nat)
    requires 0 < k <= |blocks|
    ensures BlockIds(blocks[..k]) == [Id(blocks[0].reference[..IdLength])] + BlockIds(blocks[1..][..k - 1])
  {
    assert blocks[..k][1..] == blocks[1..][..k - 1];
  }

  /** The encoder's calls of `write_block`, one per emitted block in order;
      the first failing write ends the encoding with that error. The result
      counts the blocks written. */
  function WriteBlocks(node: Node, blocks: seq<BlockWithReference>): (w: Written)
    ensures w.result.Ok? <==> WritesSucceed(node.db, |blocks|)
    ensures w.result.Ok? ==> w.result.value == |blocks| && w.node.db.writes == node.db.writes + |blocks|
    ensures w.result.Err? ==> w.result.error == Io(WriteFailed)
                              && node.db.writes < w.node.db.writes <= node.db.writes + |blocks|
    ensures w.node.db.readFault == node.db.readFault && w.node.db.failingWrites == node.db.failingWrites
    ensures w.node.remote == node.remote && w.node.hash == node.hash
    decreases |blocks|
  {
    if |blocks| == 0 then Written(Ok(0), node)
    else
      var first := WriteBlock(node, blocks[0]);
      WritesSucceedStep(node.db, first.node.db, |blocks|);
      if first.result.Err? then first
      else
        var rest := WriteBlocks(first.node, blocks[1..]);
        if rest.result.Err? then rest else Written(Ok(|blocks|), rest.node)
  }

  /** When every write succeeds, the store has each block put in turn. */
  lemma {:induction false} WriteBlocksSucceed(node: Node, blocks: seq<BlockWithReference>)
    requires WritesSucceed(node.db, |blocks|)
    ensures WriteBlocks(node, blocks).node.db.blocks == Applied(node.db.blocks, blocks)
    decreases |blocks|
  {
    if |blocks| > 0 {
      var first := WriteBlock(node, blocks[0]);
      var rest := WriteBlocks(first.node, blocks[1..]);
      assert first.result.Ok? && WriteBlocks(node, blocks).node == rest.node by {
        WriteBlocksUnfold(node, blocks);
      }
      WriteBlocksSucceed(first.node, blocks[1..]);
    }
  }

  /** When every write succeeds, every block is announced, in order. */
  lemma {:induction false} WriteBlocksAnnounce(node: Node, blocks: seq<BlockWithReference>)
    requires WritesSucceed(node.db, |blocks|)
    ensures WriteBlocks(node, blocks).node.announced == node.announced + BlockIds(blocks)
    decreases |blocks|
  {
    if |blocks| > 0 {
      var first := WriteBlock(node, blocks[0]);
      var rest := WriteBlocks(first.node, blocks[1..]);
      assert first.result.Ok? && WriteBlocks(node, blocks).node == rest.node by {
        WriteBlocksUnfold(node, blocks);
      }
      WriteBlocksAnnounce(first.node, blocks[1..]);
    }
  }

  /** The position in `blocks` of the write that failed, read off the
      attempt count. */
  function FailedAt(node: Node, blocks: seq<BlockWithReference>): int {
    WriteBlocks(node, blocks).node.db.writes - node.db.writes - 1
  }

  /** When a write fails, it is the first failing attempt of the sequence. */
  lemma {:induction false} WriteBlocksFailAt(node: Node, blocks: seq<BlockWithReference>)
    requires !WritesSucceed(node.db, |blocks|)
    ensures 0 <= FailedAt(node, blocks) < |blocks|
    ensures WritesSucceed(node.db, FailedAt(node, blocks))
    ensures node.db.writes + FailedAt(node, blocks) in node.db.failingWrites
    decreases |blocks|
  {
    var first := WriteBlock(node, blocks[0]);
    if first.result.Ok? {
      var rest := WriteBlocks(first.node, blocks[1..]);
      assert WriteBlocks(node, blocks).node == rest.node by {
        WriteBlocksUnfold(node, blocks);
      }
      WriteBlocksFailAt(first.node, blocks[1..]);
      assert FailedAt(node, blocks) == FailedAt(first.node, blocks[1..]) + 1;
    } else {
      assert WriteBlocks(node, blocks) == first by {
        WriteBlocksUnfold(node, blocks);
      }
    }
  }

  /** When a write fails, the blocks before it are stored. */
  lemma {:induction false} WriteBlocksFailStore(node: Node, blocks: seq<BlockWithReference>)
    requires !WritesSucceed(node.db, |blocks|)
    ensures 0 <= FailedAt(node, blocks) < |blocks|
    ensures WriteBlocks(node, blocks).node.db.blocks == Applied(node.db.blocks, blocks[..FailedAt(node, blocks)])
    decreases |blocks|
  {
    WriteBlocksFailAt(node, blocks);
    var first := WriteBlock(node, blocks[0]);
    if first.result.Ok? {
      var rest := WriteBlocks(first.node, blocks[1..]);
      assert WriteBlocks(node, blocks).node == rest.node by {
        WriteBlocksUnfold(node, blocks);
      }
      WriteBlocksFailStore(first.node, blocks[1..]);
      AppliedPrefix(node.db.blocks, blocks, FailedAt(node, blocks));
    } else {
      assert WriteBlocks(node, blocks) == first by {
        WriteBlocksUnfold(node, blocks);
      }
    }
  }

  /** When a write fails, the blocks up to and including it are announced. */
  lemma {:induction false} WriteBlocksFailAnnounce(node: Node, blocks: seq<BlockWithReference>)
    requires !WritesSucceed(node.db, |blocks|)
    ensures 0 <= FailedAt(node, blocks) < |blocks|
    ensures WriteBlocks(node, blocks).node.announced == node.announced + BlockIds(blocks[..FailedAt(node, blocks) + 1])
    decreases |blocks|
  {
    WriteBlocksFailAt(node, blocks);
    var first := WriteBlock(node, blocks[0]);
    if first.result.Ok? {
      var rest := WriteBlocks(first.node, blocks[1..]);
      assert WriteBlocks(node, blocks).node == rest.node by {
        WriteBlocksUnfold(node, blocks);
      }
      WriteBlocksFailAnnounce(first.node, blocks[1..]);
      var k := FailedAt(first.node, blocks[1..]);
      assert FailedAt(node, blocks) == k + 1;
      var id := Id(blocks[0].reference[..IdLength]);
      var later := BlockIds(blocks[1..][..k + 1]);
      assert BlockIds(blocks[..k + 2]) == [id] + later by {
        BlockIdsPrefix(blocks, k + 2);
      }
      assert rest.node.announced == (node.announced + [id]) + later;
      assert (node.announced + [id]) + later == node.announced + ([id] + later);
    } else {
      assert WriteBlocks(node, blocks) == first by {
        WriteBlocksUnfold(node, blocks);
      }
      assert FailedAt(node, blocks) == 0;
      assert blocks[..1] == [blocks[0]];
    }
  }

  /** One step of the writes: a failing first write ends them, a successful
      one is followed by the writes of the rest. */
  lemma WriteBlocksUnfold(node: Node, blocks: seq<BlockWithReference>)
    requires |blocks| > 0
    ensures var first := WriteBlock(node, blocks[0]);
            && (first.result.Err? ==> WriteBlocks(node, blocks) == first)
            && (first.result.Ok? ==> WriteBlocks(node, blocks).node == WriteBlocks(first.node, blocks[1..]).node)
  {
  }

  lemma EmittedCons(blocks: seq<BlockWithReference>, r: Reference)
    requires |blocks| > 0
    ensures Emitted(blocks, r) <==> blocks[0].reference == r || Emitted(blocks[1..], r)
  {
    if Emitted(blocks, r) && blocks[0].reference != r {
      var i :| 0 <= i < |blocks| && blocks[i].reference == r;
      assert blocks[1..][i - 1].reference == r;
    }
    if Emitted(blocks[1..], r) {
      var i :| 0 <= i < |blocks[1..]| && blocks[1..][i].reference == r;
      assert blocks[i + 1].reference == r;
    }
  }

  lemma LastWithTail(blocks: seq<BlockWithReference>, i: nat)
    requires 0 < i < |blocks| && LastWith(blocks, i)
    ensures LastWith(blocks[1..], i - 1)
  {
    forall j | i - 1 < j < |blocks[1..]|
      ensures blocks[1..][j].reference != blocks[1..][i - 1].reference
    {
      assert blocks[1..][j] == blocks[j + 1];
    }
  }

  /** Putting blocks adds exactly their references to the map. */
  lemma {:induction false} AppliedKeys(m: map<Reference, seq<byte>>, blocks: seq<BlockWithReference>)
    ensures forall r :: r in Applied(m, blocks) <==> r in m || Emitted(blocks, r)
    decreases |blocks|
  {
    if |blocks| > 0 {
      AppliedKeys(m[blocks[0].reference := blocks[0].block], blocks[1..]);
      forall r | true
        ensures Emitted(blocks, r) <==> blocks[0].reference == r || Emitted(blocks[1..], r)
      {
        EmittedCons(blocks, r);
      }
    }
  }

  /** Putting blocks leaves every reference none of them carries as it was. */
  lemma {:induction false} AppliedKeep(m: map<Reference, seq<byte>>, blocks: seq<BlockWithReference>, r: Reference)
    requires r in m && !Emitted(blocks, r)
    ensures r in Applied(m, blocks) && Applied(m, blocks)[r] == m[r]
    decreases |blocks|
  {
    if |blocks| > 0 {
      EmittedCons(blocks, r);
      AppliedKeep(m[blocks[0].reference := blocks[0].block], blocks[1..], r);
    }
  }

  /** After putting blocks, a reference holds the last block put under it. */
  lemma {:induction false} AppliedLast(m: map<Reference, seq<byte>>, blocks: seq<BlockWithReference>, i: nat)
    requires i < |blocks| && LastWith(blocks, i)
    ensures blocks[i].reference in Applied(m, blocks)
    ensures Applied(m, blocks)[blocks[i].reference] == blocks[i].block
    decreases |blocks|
  {
    var m' := m[blocks[0].reference := blocks[0].block];
    if i == 0 {
      forall j | 0 <= j < |blocks[1..]|
        ensures blocks[1..][j].reference != blocks[0].reference
      {
        assert blocks[1..][j] == blocks[j + 1];
      }
      AppliedKeep(m', blocks[1..], blocks[0].reference);
    } else {
      LastWithTail(blocks, i);
      AppliedLast(m', blocks[1..], i - 1);
    }
  }

  /** After every write succeeds, the store holds exactly the old blocks and
      the emitted ones: each emitted reference maps to the last block written
      under it, and every other reference keeps its old block. */
  lemma WriteBlocksStores(node: Node, blocks: seq<BlockWithReference>)
    requires WritesSucceed(node.db, |blocks|)
    ensures var m := WriteBlocks(node, blocks).node.db.blocks;
            && (forall r :: r in m <==> r in node.db.blocks || Emitted(blocks, r))
            && (forall i :: 0 <= i < |blocks| && LastWith(blocks, i) ==> m[blocks[i].reference] == blocks[i].block)
            && (forall r :: r in node.db.blocks && !Emitted(blocks, r) ==> m[r] == node.db.blocks[r])
  {
    var m := node.db.blocks;
    WriteBlocksSucceed(node, blocks);
    AppliedKeys(m, blocks);
    forall i | 0 <= i < |blocks| && LastWith(blocks, i)
      ensures Applied(m, blocks)[blocks[i].reference] == blocks[i].block
    {
      AppliedLast(m, blocks, i);
    }
    forall r | r in m && !Emitted(blocks, r)
      ensures Applied(m, blocks)[r] == m[r]
    {
      AppliedKeep(m, blocks, r);
    }
  }

  /** A write can fail part way through: when the second write attempt
      fails, the first block stays stored and both blocks are announced. */
  lemma SecondWriteFails(node: Node, blocks: seq<BlockWithReference>)
    requires |blocks| >= 2
    requires !NextWriteFails(node.db) && node.db.writes + 1 in node.db.failingWrites
    ensures WriteBlocks(node, blocks).result == Err(Io(WriteFailed))
    ensures WriteBlocks(node, blocks).node.db.blocks == node.db.blocks[blocks[0].reference := blocks[0].block]
    ensures WriteBlocks(node, blocks).node.announced
            == node.announced + [Id(blocks[0].reference[..IdLength]), Id(blocks[1].reference[..IdLength])]
  {
    var w := WriteBlocks(node, blocks);
    assert !WritesSucceed(node.db, |blocks|);
    WriteBlocksFailAt(node, blocks);
    WriteBlocksFailStore(node, blocks);
    WriteBlocksFailAnnounce(node, blocks);
    assert FailedAt(node, blocks) == 1;
    assert blocks[..1] == [blocks[0]];
    assert blocks[..2] == [blocks[0], blocks[1]];
  }

  /** What the upload handler answers, and the node after the encoder's
      block writes. */
  datatype Upload = Upload(response: Response, node: Node)

  /** The 422 message a failed encoding gets: the encoder's own message for
      JSON, a fixed one for multipart files. */
  function EncodeFailure(content: Content, message: string): string {
    if content.JsonBody? then message else "Failed to create capability."
  }

  /** What the upload handler passes to the encoder, or the response it
      sends without encoding. */
  function UploadInput(content: Content): (r: Result<(seq<byte>, BlockSize), Response>)
    ensures content.JsonBody? ==> r == Ok((content.serialized, JsonBlockSize(content.serialized)))
    ensures content.FileBody? && r.Ok? ==> r.value.1 == Size1KiB
    ensures content.FileBody? ==> (r.Ok? <==> content.field.Field?)
    ensures r.Err? ==> r.error.status == StatusUnprocessableEntity
  {
    match content
    case JsonBody(serialized) => Ok((serialized, JsonBlockSize(serialized)))
    case FileBody(NoField) => Err(Response(StatusUnprocessableEntity, Text("Failed to read file.")))
    case FileBody(UnreadableField) =>
      Err(Response(StatusUnprocessableEntity, Text("Failed to extract bytes from multipart files.")))
    case FileBody(Field(bytes)) => Ok((bytes, Size1KiB))
  }

  /** Large blocks are used for JSON of at least 1000 bytes and nothing else. */
  lemma UploadBlockSize(content: Content)
    requires UploadInput(content).Ok?
    ensures UploadInput(content).value.1 == Size32KiB <==> content.JsonBody? && |content.serialized| >= SmallJsonLimit
  {
  }

  /** `resource_to_name`: encode the upload, with `write_block` storing and
      announcing each block, and answer with the capability's URN. */
  function ResourceToName(node: Node, content: Content, secret: seq<byte>, encode: Encoder): (u: Upload)
    ensures u.response.status == StatusCreated || u.response.status == StatusUnprocessableEntity
    ensures UploadInput(content).Err? ==> u == Upload(UploadInput(content).error, node)
    ensures UploadInput(content).Ok? ==>
              var (bytes, size) := UploadInput(content).value;
              u.node == WriteBlocks(node, encode(bytes, secret, size).blocks).node
    ensures u.response.status == StatusCreated <==>
              UploadInput(content).Ok? &&
              var (bytes, size) := UploadInput(content).value;
              var e := encode(bytes, secret, size);
              e.urn.Ok? && WritesSucceed(node.db, |e.blocks|)
    ensures UploadInput(content).Ok? ==>
              var (bytes, size) := UploadInput(content).value;
              !WritesSucceed(node.db, |encode(bytes, secret, size).blocks|) ==>
                u.response == Response(StatusUnprocessableEntity, Text(EncodeFailure(content, WriteFailed)))
    ensures u.response.status == StatusCreated ==>
              var (bytes, size) := UploadInput(content).value;
              var e := encode(bytes, secret, size);
              && u.response.payload == Text(e.urn.value)
              && u.node.db.blocks == Applied(node.db.blocks, e.blocks)
              && u.node.announced == node.announced + BlockIds(e.blocks)
              && (forall i :: 0 <= i < |e.blocks| ==> e.blocks[i].reference in u.node.db.blocks)
    ensures u.node.db.readFault == node.db.readFault && u.node.db.failingWrites == node.db.failingWrites
    ensures u.node.remote == node.remote && u.node.hash == node.hash
  {
    match UploadInput(content)
    case Err(response) => Upload(response, node)
    case Ok((bytes, size)) =>
      var e := encode(bytes, secret, size);
      var w := WriteBlocks(node, e.blocks);
      if w.result.Err? then
        Upload(Response(StatusUnprocessableEntity, Text(EncodeFailure(content, WriteFailed))), w.node)
      else
        WriteBlocksSucceed(node, e.blocks);
        WriteBlocksAnnounce(node, e.blocks);
        assert forall i :: 0 <= i < |e.blocks| ==> e.blocks[i].reference in w.node.db.blocks by {
          AppliedKeys(node.db.blocks, e.blocks);
          forall i | 0 <= i < |e.blocks|
            ensures Emitted(e.blocks, e.blocks[i].reference)
          {
          }
        }
        match e.urn
        case Ok(urn) => Upload(Response(StatusCreated, Text(urn)), w.node)
        case Err(message) => Upload(Response(StatusUnprocessableEntity, Text(EncodeFailure(content, message))), w.node)
  }

  /** Every block of a successful upload can be read back from the node
      without the DHT: the last block written under each reference. */
  lemma UploadedBlocksReadBack(node: Node, content: Content, secret: seq<byte>, encode: Encoder, i: nat)
    requires !node.db.readFault
    requires ResourceToName(node, content, secret, encode).response.status == StatusCreated
    requires var (bytes, size) := UploadInput(content).value;
             i < |encode(bytes, secret, size).blocks| && LastWith(encode(bytes, secret, size).blocks, i)
    ensures var (bytes, size) := UploadInput(content).value;
            var b := encode(bytes, secret, size).blocks[i];
            ReadBlock(ResourceToName(node, content, secret, encode).node, b.reference) == Ok(b.block)
  {
    var (bytes, size) := UploadInput(content).value;
    AppliedLast(node.db.blocks, encode(bytes, secret, size).blocks, i);
  }

  /** A multipart upload is always encoded with 1 KiB blocks, however large. */
  lemma FileUploadsUseSmallBlocks(node: Node, bytes: seq<byte>, secret: seq<byte>, encode: Encoder)
    ensures UploadInput(FileBody(Field(bytes))) == Ok((bytes, Size1KiB))
    ensures ResourceToName(node, FileBody(Field(bytes)), secret, encode).response.status == StatusCreated
            <==> encode(bytes, secret, Size1KiB).urn.Ok?
                 && WritesSucceed(node.db, |encode(bytes, secret, Size1KiB).blocks|)
  {
  }

  /** How `Content::from_request` reads the Content-Type header. */
  datatype ContentKind = JsonKind | FileKind | Unsupported

  const JsonType: string := "application/json"
  const FormType: string := "multipart/form-data"

  /** The Content-Type dispatch: a textual header starting with the JSON
      media type, then one starting with the multipart type; anything else,
      a missing header or one that is not text, is unsupported. */
  function ClassifyContentType(header: Option<HeaderValue>): (k: ContentKind)
    ensures k == JsonKind <==> header.Some? && AllVisible(header.value) && StartsWith(TextOf(header.value), JsonType)
    ensures k == FileKind <==> header.Some? && AllVisible(header.value) && StartsWith(TextOf(header.value), FormType)
    ensures k == Unsupported <==> header.None? || !AllVisible(header.value)
                                  || (!StartsWith(TextOf(header.value), JsonType)
                                      && !StartsWith(TextOf(header.value), FormType))
  {
    match header
    case None => Unsupported
    case Some(h) =>
      match HeaderToStr(h)
      case None => Unsupported
      case Some(t) =>
        if StartsWith(t, JsonType) then
          assert t[0] == JsonType[0] != FormType[0];
          JsonKind
        else if StartsWith(t, FormType) then FileKind
        else Unsupported
  }

  /** `Content::from_request`: classify, then run the matching extractor
      (whose rejection is passed through), or answer 415. */
  function ContentFromRequest(header: Option<HeaderValue>, json: Result<seq<byte>, Response>,
                              form: Result<FormField, Response>): (r: Result<Content, Response>)
    ensures r == Err(Response(StatusUnsupportedMediaType, NoBody)) <==>
              ClassifyContentType(header) == Unsupported
                || (ClassifyContentType(header) == JsonKind && json == Err(Response(StatusUnsupportedMediaType, NoBody)))
                || (ClassifyContentType(header) == FileKind && form == Err(Response(StatusUnsupportedMediaType, NoBody)))
    ensures r.Ok? && r.value.JsonBody? ==> ClassifyContentType(header) == JsonKind && json == Ok(r.value.serialized)
    ensures r.Ok? && r.value.FileBody? ==> ClassifyContentType(header) == FileKind && form == Ok(r.value.field)
  {
    match ClassifyContentType(header)
    case JsonKind => (match json case Ok(s) => Ok(JsonBody(s)) case Err(e) => Err(e))
    case FileKind => (match form case Ok(f) => Ok(FileBody(f)) case Err(e) => Err(e))
    case Unsupported => Err(Response(StatusUnsupportedMediaType, NoBody))
  }

  // ---------------------------------------------------------------------
  // Downloads
  // ---------------------------------------------------------------------

  /** An ERIS read capability (block size, tree level, root reference and key). */
  datatype ReadCapability = ReadCapability(blockSize: BlockSize, level: nat, root: Reference, key: seq<byte>)

  /** The ERIS codec's read side: URN parsing, and decoding that pulls
      blocks through the `read_block` closure it is given. */
  datatype Eris = Eris(
    fromUrn: string -> Option<ReadCapability>,
    decode: (ReadCapability, Reference -> Result<seq<byte>, ErrorKind>) -> Result<seq<byte>, ErrorKind>)

  const OctetStream: string := "application/octet-stream"

  /** The response to a decoded capability, chosen by the Accept header,
      which must equal one of the two media types byte for byte. */
  function AcceptResponse(accept: Option<HeaderValue>, buf: seq<byte>, parseJson: seq<byte> -> Option<Json>): (r: Response)
    ensures accept.Some? && TextOf(accept.value) == JsonType ==>
              r == (match parseJson(buf)
                    case Some(doc) => Response(StatusOk, JsonDoc(doc))
                    case None => Response(StatusUnprocessableEntity, Text("Entity is not JSON")))
    ensures r == Response(StatusOk, Raw(buf)) <==> accept.Some? && TextOf(accept.value) == OctetStream
    ensures r.status == StatusNotFound <==>
              accept.None? || (TextOf(accept.value) != JsonType && TextOf(accept.value) != OctetStream)
  {
    if accept.Some? && TextOf(accept.value) == JsonType then
      match parseJson(buf)
      case Some(doc) => Response(StatusOk, JsonDoc(doc))
      case None => Response(StatusUnprocessableEntity, Text("Entity is not JSON"))
    else if accept.Some? && TextOf(accept.value) == OctetStream then Response(StatusOk, Raw(buf))
    else Response(StatusNotFound, Text("Failed to fetch capability."))
  }

  /** The letters that tell the three media types apart. */
  lemma MediaTypeLetters()
    ensures |JsonType| == 16 && |FormType| == 19 && |OctetStream| == 24
    ensures JsonType[12] == 'j' && OctetStream[0] == 'a' && OctetStream[12] == 'o' && FormType[0] == 'm'
  {
  }

  /** Content-Type is matched by prefix, Accept exactly: any header text
      that strictly extends the JSON media type (parameters such as a
      charset, say) is classified as JSON and handed to the JSON extractor,
      but gets 404 as an Accept value. */
  lemma JsonPrefixSplitsDispatches(h: HeaderValue, buf: seq<byte>, parseJson: seq<byte> -> Option<Json>)
    requires AllVisible(h) && StartsWith(TextOf(h), JsonType) && |h| > |JsonType|
    ensures ClassifyContentType(Some(h)) == JsonKind
    ensures AcceptResponse(Some(h), buf, parseJson).status == StatusNotFound
  {
    var t := TextOf(h);
    MediaTypeLetters();
    assert t[12] == t[..|JsonType|][12] == 'j';
    assert t != JsonType;
  }

  /** The octet-stream media type selects raw bytes as an Accept value but
      is no upload Content-Type. */
  lemma OctetStreamOnlyDownloads(h: HeaderValue, buf: seq<byte>, parseJson: seq<byte> -> Option<Json>)
    requires TextOf(h) == OctetStream
    ensures ClassifyContentType(Some(h)) == Unsupported
    ensures AcceptResponse(Some(h), buf, parseJson) == Response(StatusOk, Raw(buf))
  {
    var t := TextOf(h);
    MediaTypeLetters();
    assert !StartsWith(t, FormType) by { assert t[..|FormType|][0] == 'a'; }
    assert !StartsWith(t, JsonType) by { assert t[..|JsonType|][12] == 'o'; }
  }

  /** `name_to_resource`: a read capability is decoded; otherwise a raw
      block URN returns that block; anything else is rejected. A request
      without a query is answered 404 before the handler runs. */
  function NameToResource(node: Node, eris: Eris, accept: Option<HeaderValue>, query: Option<string>,
                          parseJson: seq<byte> -> Option<Json>): (r: Response)
    ensures query.None? ==> r.status == StatusNotFound
    ensures query.Some? && eris.fromUrn(query.value).Some? ==>
              r == (match eris.decode(eris.fromUrn(query.value).value, (x: Reference) => ReadBlock(node, x))
                    case Ok(buf) => AcceptResponse(accept, buf, parseJson)
                    case Err(_) => Response(StatusNotFound, Text("Failed to dereference capability.")))
    ensures query.Some? && eris.fromUrn(query.value).None? && UrnToRef(query.value).Some? ==>
              var reference := UrnToRef(query.value).value;
              r == (match ReadBlock(node, reference)
                    case Ok(block) => Response(StatusOk, Raw(block))
                    case Err(_) => Response(StatusNotFound, Text("Failed to fetch block.")))
    ensures query.Some? && eris.fromUrn(query.value).None? ==>
              (r == Response(StatusUnprocessableEntity, Text("Invalid capability.")) <==> UrnToRef(query.value).None?)
  {
    match query
    case None => Response(StatusNotFound, NoBody)
    case Some(q) =>
      var readBlock := (x: Reference) => ReadBlock(node, x);
      match eris.fromUrn(q)
      case Some(capability) =>
        (match eris.decode(capability, readBlock)
         case Ok(buf) => AcceptResponse(accept, buf, parseJson)
         case Err(_) => Response(StatusNotFound, Text("Failed to dereference capability.")))
      case None =>
        match UrnToRef(q)
        case Some(reference) =>
          (match readBlock(reference)
           case Ok(block) => Response(StatusOk, Raw(block))
           case Err(_) => Response(StatusNotFound, Text("Failed to fetch block.")))
        case None => Response(StatusUnprocessableEntity, Text("Invalid capability."))
  }

  /** A raw block served for a block URN is either the locally stored block
      or bytes that hash to the reference the URN names. */
  lemma RawBlockIntegrity(node: Node, eris: Eris, accept: Option<HeaderValue>, q: string,
                          parseJson: seq<byte> -> Option<Json>)
    requires eris.fromUrn(q).None?
    requires NameToResource(node, eris, accept, Some(q), parseJson).payload.Raw?
    ensures UrnToRef(q).Some?
    ensures var reference := UrnToRef(q).value;
            var block := NameToResource(node, eris, accept, Some(q), parseJson).payload.bytes;
            (reference in node.db.blocks && node.db.blocks[reference] == block) || node.hash(block) == reference
  {
  }

  /** A node holding a block answers a peer's request for it, sent to the
      URL `peer_to_url` builds, with exactly the stored bytes. */
  lemma ServesHeldBlock(node: Node, eris: Eris, accept: Option<HeaderValue>, peer: Peer,
                        reference: Reference, parseJson: seq<byte> -> Option<Json>)
    requires !node.db.readFault && reference in node.db.blocks
    requires eris.fromUrn(RefToUrn(reference)).None?
    ensures NameToResource(node, eris, accept, QueryOf(PeerToUrl(peer, reference)), parseJson)
            == Response(StatusOk, Raw(node.db.blocks[reference]))
  {
    PeerUrlNamesBlock(peer, reference);
    UrnRoundTrip(reference);
  }
}

=== FILE: base32.dfy ===
/** Base32 with the RFC 4648 alphabet (section 6), padding omitted as
    section 3.2 of RFC 4648 allows. Encoding splits the input's bits into
    groups of five, zero-fills the last group, and writes one symbol per
    group. Decoding maps every symbol back to five bits and keeps the first
    `8 * (n * 5 / 8)` bits of an `n`-symbol input: leftover bits that do not
    make up a whole byte are dropped without being checked. */
module Base32 {
  import opened Wrappers
  import opened Bytes

  /** A symbol of the alphabet `A`-`Z`, `2`-`7`. */
  predicate IsSymbol(c: char) {
    ('A' <= c <= 'Z') || ('2' <= c <= '7')
  }

  predicate AllSymbols(s: string) {
    forall k :: 0 <= k < |s| ==> IsSymbol(s[k])
  }

  /** The character for a five-bit value. */
  function SymbolChar(v: nat): (c: char)
    requires v < 32
    ensures IsSymbol(c)
  {
    if v < 26 then ('A' as int + v) as char else ('2' as int + v - 26) as char
  }

  /** The five-bit value of a character, `None` outside the alphabet. */
  function SymbolValue(c: char): (r: Option<nat>)
    ensures r.Some? <==> IsSymbol(c)
    ensures r.Some? ==> r.value < 32 && SymbolChar(r.value) == c
  {
    if 'A' <= c <= 'Z' then Some(c as int - 'A' as int)
    else if '2' <= c <= '7' then Some(c as int - '2' as int + 26)
    else None
  }

  lemma SymbolCharValue(v: nat)
    requires v < 32
    ensures SymbolValue(SymbolChar(v)) == Some(v)
  {
  }

  /** Number of zero bits appended to `n` bits to reach a multiple of five. */
  function FillLength(n: nat): (f: nat)
    ensures f < 5 && (n + f) % 5 == 0
  {
    if n == 0 then 0 else if n < 5 then 5 - n else FillLength(n - 5)
  }

  /** Five-bit groups of `bs`, the last one zero-filled. */
  function BitsToSymbols(bs: seq<bool>): (syms: seq<nat>)
    ensures |syms| == (|bs| + 4) / 5
    ensures forall k :: 0 <= k < |syms| ==> syms[k] < 32
    decreases |bs|
  {
    if |bs| == 0 then []
    else if |bs| < 5 then
      assert Pow2(5) == 32;
      [FromBits(bs + Zeros(5 - |bs|))]
    else
      assert Pow2(5) == 32;
      [FromBits(bs[..5])] + BitsToSymbols(bs[5..])
  }

  /** Five bits per symbol value. */
  function SymbolsToBits(syms: seq<nat>): (bs: seq<bool>)
    ensures |bs| == 5 * |syms|
  {
    if |syms| == 0 then [] else ToBits(syms[0], 5) + SymbolsToBits(syms[1..])
  }

  /** One five-bit group read as a symbol value and written back. */
  lemma GroupBits(g: seq<bool>)
    requires |g| == 5
    ensures SymbolsToBits([FromBits(g)]) == g
  {
    var v := FromBits(g);
    assert SymbolsToBits([v]) == ToBits(v, 5) + SymbolsToBits([]);
    ToFromBits(g);
  }

  /** A last group of fewer than five bits comes back zero-filled. */
  lemma ShortGroupBits(bs: seq<bool>)
    requires 0 < |bs| < 5
    ensures SymbolsToBits(BitsToSymbols(bs)) == bs + Zeros(FillLength(|bs|))
  {
    var padded := bs + Zeros(5 - |bs|);
    assert BitsToSymbols(bs) == [FromBits(padded)];
    GroupBits(padded);
  }

  /** A full group of five bits comes back unchanged in front of the rest. */
  lemma FullGroupBits(bs: seq<bool>)
    requires 5 <= |bs|
    ensures SymbolsToBits(BitsToSymbols(bs)) == bs[..5] + SymbolsToBits(BitsToSymbols(bs[5..]))
  {
    var v := FromBits(bs[..5]);
    var rest := BitsToSymbols(bs[5..]);
    assert BitsToSymbols(bs) == [v] + rest;
    assert ([v] + rest)[1..] == rest;
    GroupBits(bs[..5]);
  }

  lemma {:induction false} SymbolsBitsRoundTrip(bs: seq<bool>)
    ensures SymbolsToBits(BitsToSymbols(bs)) == bs + Zeros(FillLength(|bs|))
    decreases |bs|
  {
    if 0 < |bs| < 5 {
      ShortGroupBits(bs);
    } else if 5 <= |bs| {
      var z := Zeros(FillLength(|bs|));
      FullGroupBits(bs);
      assert FillLength(|bs[5..]|) == FillLength(|bs|);
      SymbolsBitsRoundTrip(bs[5..]);
      assert bs[..5] + (bs[5..] + z) == bs + z by {
        assert bs == bs[..5] + bs[5..];
      }
    }
  }

  function SymbolsToText(syms: seq<nat>): (s: string)
    requires forall k :: 0 <= k < |syms| ==> syms[k] < 32
    ensures |s| == |syms|
    ensures forall k :: 0 <= k < |s| ==> s[k] == SymbolChar(syms[k])
  {
    if |syms| == 0 then [] else [SymbolChar(syms[0])] + SymbolsToText(syms[1..])
  }

  /** The symbol values of `s`, or `None` when some character is not in the alphabet. */
  function TextToSymbols(s: string): (r: Option<seq<nat>>)
    ensures r.Some? <==> AllSymbols(s)
    ensures r.Some? ==> |r.value| == |s|
    ensures r.Some? ==> forall k :: 0 <= k < |s| ==> r.value[k] < 32 && SymbolChar(r.value[k]) == s[k]
  {
    if |s| == 0 then Some([])
    else match (SymbolValue(s[0]), TextToSymbols(s[1..]))
      case (Some(v), Some(rest)) => Some([v] + rest)
      case _ => None
  }

  /** `base32::encode` with the unpadded RFC 4648 alphabet. */
  function Encode(data: seq<byte>): (s: string)
    ensures |s| == (8 * |data| + 4) / 5
    ensures AllSymbols(s)
  {
    SymbolsToText(BitsToSymbols(BytesToBits(data)))
  }

  /** `base32::decode` with the unpadded RFC 4648 alphabet. */
  function Decode(s: string): (r: Option<seq<byte>>)
    ensures r.Some? <==> AllSymbols(s)
    ensures r.Some? ==> |r.value| == |s| * 5 / 8
  {
    match TextToSymbols(s)
    case None => None
    case Some(syms) =>
      var bits := SymbolsToBits(syms);
      var n := |s| * 5 / 8;
      Some(BitsToBytes(bits[..8 * n]))
  }

  /** Reading the symbols of an encoded text gives back the values written. */
  lemma {:induction false} TextSymbolsRoundTrip(syms: seq<nat>)
    requires forall k :: 0 <= k < |syms| ==> syms[k] < 32
    ensures TextToSymbols(SymbolsToText(syms)) == Some(syms)
  {
    if |syms| > 0 {
      var s := SymbolsToText(syms);
      assert s[1..] == SymbolsToText(syms[1..]);
      SymbolCharValue(syms[0]);
      TextSymbolsRoundTrip(syms[1..]);
      assert syms == [syms[0]] + syms[1..];
    }
  }

  /** Symbols needed for `k` bytes, turned back into bytes, is `k` again. */
  lemma SymbolCountByteCount(k: nat)
    ensures ((8 * k + 4) / 5) * 5 / 8 == k
  {
    var m := (8 * k + 4) / 5;
    assert 8 * k <= 5 * m <= 8 * k + 4;
  }

  /** Decoding an encoding gives the bytes back, for inputs of any length. */
  lemma {:induction false} RoundTrip(data: seq<byte>)
    ensures Decode(Encode(data)) == Some(data)
  {
    var bits := BytesToBits(data);
    var syms := BitsToSymbols(bits);
    var s := Encode(data);
    TextSymbolsRoundTrip(syms);
    SymbolsBitsRoundTrip(bits);
    SymbolCountByteCount(|data|);
    var all := SymbolsToBits(syms);
    assert all[..8 * |data|] == bits;
    BytesBitsRoundTrip(data);
  }
}

=== FILE: bytes.dfy ===
/** Bytes and the big-endian bit strings the base32 codec regroups them into. */
module Bytes {

  newtype byte = x: int | 0 <= x < 256

  function Pow2(n: nat): (p: nat)
    ensures p >= 1
  {
    if n == 0 then 1 else 2 * Pow2(n - 1)
  }

  /** The `n` low bits of `v`, most significant first. */
  function ToBits(v: nat, n: nat): (bs: seq<bool>)
    ensures |bs| == n
  {
    if n == 0 then [] else ToBits(v / 2, n - 1) + [v % 2 == 1]
  }

  /** The number a big-endian bit string denotes; it always fits the width. */
  function FromBits(bs: seq<bool>): (v: nat)
    ensures v < Pow2(|bs|)
  {
    if |bs| == 0 then 0
    else 2 * FromBits(bs[..|bs| - 1]) + (if bs[|bs| - 1] then 1 else 0)
  }

  lemma {:induction false} FromToBits(v: nat, n: nat)
    requires v < Pow2(n)
    ensures FromBits(ToBits(v, n)) == v
  {
    if n > 0 {
      var bs := ToBits(v, n);
      assert bs[..n - 1] == ToBits(v / 2, n - 1);
      FromToBits(v / 2, n - 1);
    }
  }

  lemma {:induction false} ToFromBits(bs: seq<bool>)
    ensures ToBits(FromBits(bs), |bs|) == bs
  {
    if |bs| > 0 {
      var init := bs[..|bs| - 1];
      assert FromBits(bs) / 2 == FromBits(init);
      ToFromBits(init);
      assert bs == init + [bs[|bs| - 1]];
    }
  }

  /** `n` zero bits, the fill RFC 4648 puts after the last input bit. */
  function Zeros(n: nat): (bs: seq<bool>)
    ensures |bs| == n
    ensures forall i :: 0 <= i < n ==> !bs[i]
  {
    seq(n, _ => false)
  }

  /** The bytes of `s`, eight bits each, in order. */
  function BytesToBits(s: seq<byte>): (bs: seq<bool>)
    ensures |bs| == 8 * |s|
  {
    if |s| == 0 then [] else ToBits(s[0] as nat, 8) + BytesToBits(s[1..])
  }

  /** Regroups a whole number of octets of bits into bytes. */
  function BitsToBytes(bs: seq<bool>): (s: seq<byte>)
    requires |bs| % 8 == 0
    ensures 8 * |s| == |bs|
  {
    if |bs| == 0 then []
    else
      assert Pow2(8) == 256;
      [FromBits(bs[..8]) as byte] + BitsToBytes(bs[8..])
  }

  lemma {:induction false} BytesBitsRoundTrip(s: seq<byte>)
    ensures BitsToBytes(BytesToBits(s)) == s
  {
    if |s| > 0 {
      var bs := BytesToBits(s);
      assert bs[..8] == ToBits(s[0] as nat, 8);
      assert bs[8..] == BytesToBits(s[1..]);
      assert Pow2(8) == 256;
      FromToBits(s[0] as nat, 8);
      BytesBitsRoundTrip(s[1..]);
    }
  }
}

=== FILE: errors.dfy ===
/** The daemon's error kinds (`ApsisErrorKind`), reduced to the variants the
    modelled code can produce. Messages are kept where the code uses them to
    tell two failures of the same kind apart. */
module Errors {

  datatype ErrorKind =
    | BlockNotFound(reason: string)
    | MainlineId
    | Io(reason: string)
    | Reqwest
    | RocksDb

  /** `fetch_block` on a DHT that never bootstrapped. */
  const NotBootstrapped: string := "DHT failed to bootstrap."
  /** `fetch_block` after every lookup round came back without a usable block. */
  const NoValidBlock: string := "Failed to fetch valid block."

  /** The `io::Error` messages the block closures of the HTTP layer attach. */
  const ReadFailed: string := "Failed to read block from database."
  const WriteFailed: string := "Failed to write block to database."
  const FetchFailed: string := "Failed to fetch block."
}

=== FILE: fetch.dfy ===
/** `fetch_block` (crates/apsisd/src/utils.rs): up to three Mainline DHT
    lookup rounds, peers tried one at a time in the order the lookup
    returns them, optionally checking each candidate against its reference.

    The DHT, the HTTP client and the hash are parameters: a lookup round is
    a function of the id and the round number returning the batches of
    peers the lookup iterator yields, and the network answers the `n`-th
    request of the fetch, sent to a given URL, with a body or a transport
    error. */
module Fetch {
  import opened Wrappers
  import opened Errors
  import opened Bytes
  import opened Utils

  const MaxPeerRetries: nat := 3

  /** What one HTTP GET to a peer gives back. */
  datatype Reply = Body(bytes: seq<byte>) | TransportError

  /** The Mainline DHT client as the daemon uses it. `getPeers(id, t)` is what
      the lookup round with index `t` yields; `announce` says whether an
      announcement would succeed. */
  datatype Dht = Dht(
    bootstrapped: bool,
    getPeers: (Id, nat) -> seq<seq<Peer>>,
    announce: Id -> bool)

  /** The DHT and the HTTP network. `net(n, url)` answers the `n`-th request. */
  datatype Remote = Remote(dht: Dht, net: (nat, string) -> Reply)

  /** Unkeyed BLAKE2b-256 (RFC 7693), left uninterpreted. */
  type Hasher = seq<byte> -> Reference

  /** The outcome of a fetch, the URLs it requested in order, and how many
      DHT lookups it started. */
  datatype Fetch = Fetch(result: Result<seq<byte>, ErrorKind>, requests: seq<string>, lookups: nat)

  /** A candidate the fetch may return: with `check` its hash must be the reference. */
  predicate Acceptable(reference: Reference, hash: Hasher, check: bool, candidate: seq<byte>) {
    !check || hash(candidate) == reference
  }

  /** The errors a fetch can end with. */
  predicate FetchError(e: ErrorKind) {
    e == BlockNotFound(NotBootstrapped) || e == BlockNotFound(NoValidBlock) || e == Reqwest
  }

  /** What the peer loops of one fetch depend on: the URL requested from a
      peer, the network's replies, and which bodies pass the check. */
  datatype Walk = Walk(urlOf: Peer -> string, net: (nat, string) -> Reply, accepts: seq<byte> -> bool)

  function WalkOf(reference: Reference, remote: Remote, hash: Hasher, check: bool): Walk {
    Walk(p => PeerToUrl(p, reference), remote.net, b => Acceptable(reference, hash, check, b))
  }

  /** Where a walk over some peers stopped: a final result, or every peer
      rejected its candidate. `sent` is the request log so far. */
  datatype Step =
    | Finished(result: Result<seq<byte>, ErrorKind>, sent: seq<string>)
    | Exhausted(sent: seq<string>)

  /** The innermost loop: `for peer in peers`. A transport error ends the
      whole fetch, a rejected body moves on to the next peer. */
  function TryPeers(w: Walk, peers: seq<Peer>, sent: seq<string>): (st: Step)
    ensures st.Finished? && st.result.Ok? ==> w.accepts(st.result.value)
    ensures st.Finished? && st.result.Err? ==> st.result.error == Reqwest
    ensures |sent| <= |st.sent| <= |sent| + |peers|
    ensures st.Finished? ==> |sent| < |st.sent|
  {
    if |peers| == 0 then Exhausted(sent)
    else
      var url := w.urlOf(peers[0]);
      match w.net(|sent|, url)
      case TransportError => Finished(Err(Reqwest), sent + [url])
      case Body(candidate) =>
        if w.accepts(candidate) then Finished(Ok(candidate), sent + [url])
        else TryPeers(w, peers[1..], sent + [url])
  }

  /** The middle loop: `for peers in subset`, one batch after another. */
  function TryBatches(w: Walk, batches: seq<seq<Peer>>, sent: seq<string>): (st: Step)
    ensures st.Finished? && st.result.Ok? ==> w.accepts(st.result.value)
    ensures st.Finished? && st.result.Err? ==> st.result.error == Reqwest
    ensures |sent| <= |st.sent|
  {
    if |batches| == 0 then Exhausted(sent)
    else
      match TryPeers(w, batches[0], sent)
      case Finished(r, s) => Finished(r, s)
      case Exhausted(s) => TryBatches(w, batches[1..], s)
  }

  /** The outer loop: `while tries < MAX_PEER_RETRIES`, one lookup per round,
      with the bound as the parameter `limit`. */
  function Rounds(w: Walk, dht: Dht, id: Id, limit: nat, tries: nat, sent: seq<string>): (f: Fetch)
    requires tries <= limit
    ensures tries <= f.lookups <= limit
    ensures f.result.Ok? ==> w.accepts(f.result.value)
    ensures f.result.Err? ==> f.result.error == Reqwest || f.result.error == BlockNotFound(NoValidBlock)
    ensures f.result == Err(BlockNotFound(NoValidBlock)) ==> f.lookups == limit
    decreases limit - tries
  {
    if tries == limit then Fetch(Err(BlockNotFound(NoValidBlock)), sent, tries)
    else
      match TryBatches(w, dht.getPeers(id, tries), sent)
      case Finished(r, s) => Fetch(r, s, tries + 1)
      case Exhausted(s) => Rounds(w, dht, id, limit, tries + 1, s)
  }

  /** `fetch_block(reference, dht, check)`. */
  function FetchBlock(reference: Reference, remote: Remote, hash: Hasher, check: bool): (f: Fetch)
    ensures !remote.dht.bootstrapped ==> f == Fetch(Err(BlockNotFound(NotBootstrapped)), [], 0)
    ensures remote.dht.bootstrapped ==> 1 <= f.lookups
    ensures f.lookups <= MaxPeerRetries
    ensures f.result.Err? ==> FetchError(f.result.error)
    ensures f.result == Err(BlockNotFound(NoValidBlock)) ==> f.lookups == MaxPeerRetries
    ensures check && f.result.Ok? ==> hash(f.result.value) == reference
  {
    if !remote.dht.bootstrapped then Fetch(Err(BlockNotFound(NotBootstrapped)), [], 0)
    else
      var id := TryRefToId(reference).value;
      Rounds(WalkOf(reference, remote, hash, check), remote.dht, id, MaxPeerRetries, 0, [])
  }

  // ---------------------------------------------------------------------
  // Reference definition: one flat scan over every candidate peer.
  // ---------------------------------------------------------------------

  function Flatten(batches: seq<seq<Peer>>): seq<Peer> {
    if |batches| == 0 then [] else batches[0] + Flatten(batches[1..])
  }

  /** Every peer the first `rounds` lookups yield, in lookup order. */
  function Candidates(dht: Dht, id: Id, rounds: nat): seq<Peer> {
    if rounds == 0 then [] else Candidates(dht, id, rounds - 1) + Flatten(dht.getPeers(id, rounds - 1))
  }

  /** The URLs requested from each of `peers`. */
  function Urls(w: Walk, peers: seq<Peer>): (us: seq<string>)
    ensures |us| == |peers|
  {
    seq(|peers|, i requires 0 <= i < |peers| => w.urlOf(peers[i]))
  }

  /** How a flat scan ends: the candidate at `at` is accepted, the request at
      `at` fails in transport, or no candidate is accepted. */
  datatype Verdict = Accepted(bytes: seq<byte>, at: nat) | Aborted(at: nat) | NoneAccepted {
    function Outcome(): Result<seq<byte>, ErrorKind> {
      match this
      case Accepted(b, _) => Ok(b)
      case Aborted(_) => Err(Reqwest)
      case NoneAccepted => Err(BlockNotFound(NoValidBlock))
    }
  }

  /** The URLs a scan of `l` ending with `v` requested: all of them, or
      those up to and including the one it stopped at. */
  function ScanRequests(w: Walk, l: seq<Peer>, v: Verdict): seq<string>
    requires !v.NoneAccepted? ==> v.at < |l|
  {
    if v.NoneAccepted? then Urls(w, l) else Urls(w, l[..v.at + 1])
  }

  /** The request to `peers[i]`, sent as request number `i`, got a body the check rejects. */
  predicate Rejected(w: Walk, peers: seq<Peer>, i: nat)
    requires i < |peers|
  {
    var reply := w.net(i, w.urlOf(peers[i]));
    reply.Body? && !w.accepts(reply.bytes)
  }

  /** Tries `peers[from..]` in order: the first transport error or
      acceptable body ends the scan, rejected bodies are skipped. */
  function Scan(w: Walk, peers: seq<Peer>, from: nat): (v: Verdict)
    requires from <= |peers|
    ensures !v.NoneAccepted? ==> from <= v.at < |peers|
    decreases |peers| - from
  {
    if from == |peers| then NoneAccepted
    else
      match w.net(from, w.urlOf(peers[from]))
      case TransportError => Aborted(from)
      case Body(b) =>
        if w.accepts(b) then Accepted(b, from)
        else Scan(w, peers, from + 1)
  }

  /** The scan stops at the first candidate that is not a rejected body: an
      acceptable body is returned, a transport error aborts; with no such
      candidate every body was rejected. */
  lemma {:induction false} ScanMeaning(w: Walk, peers: seq<Peer>, from: nat)
    requires from <= |peers|
    ensures var v := Scan(w, peers, from);
            && (v.Accepted? ==> w.net(v.at, w.urlOf(peers[v.at])) == Body(v.bytes) && w.accepts(v.bytes))
            && (v.Aborted? ==> w.net(v.at, w.urlOf(peers[v.at])) == TransportError)
            && (!v.NoneAccepted? ==> forall j :: from <= j < v.at ==> Rejected(w, peers, j))
            && (v.NoneAccepted? ==> forall j :: from <= j < |peers| ==> Rejected(w, peers, j))
    decreases |peers| - from
  {
    if from < |peers| {
      var reply := w.net(from, w.urlOf(peers[from]));
      if reply.Body? && !w.accepts(reply.bytes) {
        ScanMeaning(w, peers, from + 1);
      }
    }
  }

  /** The first peer of a peer loop is the flat scan's candidate `k`: a
      rejected body moves both on to the next candidate, anything else ends
      both the same way. */
  lemma FirstPeer(w: Walk, l: seq<Peer>, k: nat, peers: seq<Peer>, sent: seq<string>)
    requires |peers| > 0
    requires k + |peers| <= |l| && l[k..k + |peers|] == peers
    requires sent == Urls(w, l[..k])
    ensures l[k + 1..k + 1 + |peers[1..]|] == peers[1..]
    ensures var st := TryPeers(w, peers, sent);
            var v := Scan(w, l, k);
            && (Rejected(w, l, k) ==> st == TryPeers(w, peers[1..], Urls(w, l[..k + 1])) && v == Scan(w, l, k + 1))
            && (!Rejected(w, l, k) ==> st.Finished? && !v.NoneAccepted? && v.at == k
                                       && st.result == v.Outcome() && st.sent == Urls(w, l[..k + 1]))
  {
    assert peers[0] == l[k];
    assert sent + [w.urlOf(peers[0])] == Urls(w, l[..k + 1]);
    assert l[k + 1..k + 1 + |peers[1..]|] == peers[1..];
  }

  /** The peer loop walks the same candidates as the flat scan. */
  lemma {:induction false} TryPeersScans(w: Walk, l: seq<Peer>, k: nat, peers: seq<Peer>, sent: seq<string>)
    requires k + |peers| <= |l| && l[k..k + |peers|] == peers
    requires sent == Urls(w, l[..k])
    ensures var st := TryPeers(w, peers, sent);
            var v := Scan(w, l, k);
            && (st.Exhausted? ==> st.sent == Urls(w, l[..k + |peers|]) && v == Scan(w, l, k + |peers|))
            && (st.Finished? ==> !v.NoneAccepted? && v.at < k + |peers|
                                 && st.result == v.Outcome() && st.sent == Urls(w, l[..v.at + 1]))
    decreases |peers|
  {
    if |peers| > 0 {
      FirstPeer(w, l, k, peers, sent);
      if Rejected(w, l, k) {
        TryPeersScans(w, l, k + 1, peers[1..], Urls(w, l[..k + 1]));
      }
    }
  }

  /** A slice of `l` that spells `a + b` spells `a`, then `b`. */
  lemma SliceSplit(l: seq<Peer>, k: nat, a: seq<Peer>, b: seq<Peer>)
    requires k + |a + b| <= |l| && l[k..k + |a + b|] == a + b
    ensures l[k..k + |a|] == a && l[k + |a|..k + |a| + |b|] == b
  {
    var all := l[k..k + |a + b|];
    assert l[k..k + |a|] == all[..|a|];
    assert l[k + |a|..k + |a| + |b|] == all[|a|..];
  }

  /** The first batch of a batch loop walks the flat scan's candidates,
      and the loop either stops there or goes on from where it got to. */
  lemma FirstBatch(w: Walk, l: seq<Peer>, k: nat, batches: seq<seq<Peer>>, sent: seq<string>)
    requires |batches| > 0
    requires k + |Flatten(batches)| <= |l| && l[k..k + |Flatten(batches)|] == Flatten(batches)
    requires sent == Urls(w, l[..k])
    ensures var next := k + |batches[0]|;
            var st := TryPeers(w, batches[0], sent);
            var v := Scan(w, l, k);
            && next + |Flatten(batches[1..])| == k + |Flatten(batches)|
            && l[next..next + |Flatten(batches[1..])|] == Flatten(batches[1..])
            && (st.Exhausted? ==> st.sent == Urls(w, l[..next]) && v == Scan(w, l, next)
                                  && TryBatches(w, batches, sent) == TryBatches(w, batches[1..], st.sent))
            && (st.Finished? ==> !v.NoneAccepted? && v.at < next
                                 && st.result == v.Outcome() && st.sent == Urls(w, l[..v.at + 1])
                                 && TryBatches(w, batches, sent) == st)
  {
    var first := batches[0];
    var rest := Flatten(batches[1..]);
    assert Flatten(batches) == first + rest;
    SliceSplit(l, k, first, rest);
    TryPeersScans(w, l, k, first, sent);
  }

  /** The batch loop walks the same candidates as the flat scan. */
  lemma {:induction false} TryBatchesScans(w: Walk, l: seq<Peer>, k: nat, batches: seq<seq<Peer>>, sent: seq<string>)
    requires k + |Flatten(batches)| <= |l| && l[k..k + |Flatten(batches)|] == Flatten(batches)
    requires sent == Urls(w, l[..k])
    ensures var st := TryBatches(w, batches, sent);
            var v := Scan(w, l, k);
            var n := |Flatten(batches)|;
            && (st.Exhausted? ==> st.sent == Urls(w, l[..k + n]) && v == Scan(w, l, k + n))
            && (st.Finished? ==> !v.NoneAccepted? && v.at < k + n
                                 && st.result == v.Outcome() && st.sent == Urls(w, l[..v.at + 1]))
    decreases |batches|
  {
    if |batches| > 0 {
      FirstBatch(w, l, k, batches, sent);
      var st := TryPeers(w, batches[0], sent);
      if st.Exhausted? {
        TryBatchesScans(w, l, k + |batches[0]|, batches[1..], st.sent);
      }
    }
  }

  lemma {:induction false} CandidatesPrefix(dht: Dht, id: Id, n: nat, m: nat)
    requires n <= m
    ensures |Candidates(dht, id, n)| <= |Candidates(dht, id, m)|
    ensures Candidates(dht, id, m)[..|Candidates(dht, id, n)|] == Candidates(dht, id, n)
    decreases m - n
  {
    if n < m {
      CandidatesPrefix(dht, id, n, m - 1);
      var shorter := Candidates(dht, id, m - 1);
      assert Candidates(dht, id, m)[..|shorter|] == shorter;
    }
  }

  /** Round `t`'s peers sit in the candidate list of `limit` rounds right
      after those of the rounds before it. */
  lemma RoundSlice(dht: Dht, id: Id, limit: nat, t: nat)
    requires t < limit
    ensures var l := Candidates(dht, id, limit);
            var d := |Candidates(dht, id, t)|;
            var peers := Flatten(dht.getPeers(id, t));
            && |Candidates(dht, id, t + 1)| == d + |peers| <= |l|
            && l[d..d + |peers|] == peers
  {
    var l := Candidates(dht, id, limit);
    var next := Candidates(dht, id, t + 1);
    var d := |Candidates(dht, id, t)|;
    CandidatesPrefix(dht, id, t + 1, limit);
    assert l[d..|next|] == l[..|next|][d..];
  }

  /** A round whose peers all reject leaves the next round to start where
      the flat scan has got to. */
  lemma RoundExhausted(w: Walk, dht: Dht, id: Id, limit: nat, tries: nat, sent: seq<string>, l: seq<Peer>, d: nat)
    requires tries < limit
    requires l == Candidates(dht, id, limit)
    requires d == |Candidates(dht, id, tries)| <= |l|
    requires sent == Urls(w, l[..d])
    requires TryBatches(w, dht.getPeers(id, tries), sent).Exhausted?
    ensures var st := TryBatches(w, dht.getPeers(id, tries), sent);
            var next := |Candidates(dht, id, tries + 1)|;
            && next <= |l|
            && st.sent == Urls(w, l[..next])
            && Scan(w, l, d) == Scan(w, l, next)
            && Rounds(w, dht, id, limit, tries, sent) == Rounds(w, dht, id, limit, tries + 1, st.sent)
  {
    RoundSlice(dht, id, limit, tries);
    TryBatchesScans(w, l, d, dht.getPeers(id, tries), sent);
  }

  /** A round that ends the fetch ends it as the flat scan does. */
  lemma RoundFinished(w: Walk, dht: Dht, id: Id, limit: nat, tries: nat, sent: seq<string>, l: seq<Peer>, d: nat)
    requires tries < limit
    requires l == Candidates(dht, id, limit)
    requires d == |Candidates(dht, id, tries)| <= |l|
    requires sent == Urls(w, l[..d])
    requires TryBatches(w, dht.getPeers(id, tries), sent).Finished?
    ensures var f := Rounds(w, dht, id, limit, tries, sent);
            var v := Scan(w, l, d);
            && f.result == v.Outcome()
            && f.requests == ScanRequests(w, l, v)
  {
    RoundSlice(dht, id, limit, tries);
    TryBatchesScans(w, l, d, dht.getPeers(id, tries), sent);
  }

  lemma {:induction false} RoundsScan(w: Walk, dht: Dht, id: Id, limit: nat, tries: nat, sent: seq<string>, l: seq<Peer>, d: nat)
    requires tries <= limit
    requires l == Candidates(dht, id, limit)
    requires d == |Candidates(dht, id, tries)| <= |l|
    requires sent == Urls(w, l[..d])
    ensures var f := Rounds(w, dht, id, limit, tries, sent);
            var v := Scan(w, l, d);
            && f.result == v.Outcome()
            && f.requests == ScanRequests(w, l, v)
    decreases limit - tries
  {
    if tries == limit {
      assert l[..d] == l;
    } else {
      var st := TryBatches(w, dht.getPeers(id, tries), sent);
      if st.Exhausted? {
        RoundExhausted(w, dht, id, limit, tries, sent, l, d);
        RoundsScan(w, dht, id, limit, tries + 1, st.sent, l, |Candidates(dht, id, tries + 1)|);
      } else {
        RoundFinished(w, dht, id, limit, tries, sent, l, d);
      }
    }
  }

  /** `fetch_block` on a bootstrapped DHT is the flat scan over the peers of
      its three lookup rounds: it returns the first acceptable candidate, is
      aborted by the first transport error, and otherwise fails with
      `BlockNotFound` after requesting the block from every candidate. */
  lemma FetchFollowsCandidates(reference: Reference, remote: Remote, hash: Hasher, check: bool)
    requires remote.dht.bootstrapped
    ensures var w := WalkOf(reference, remote, hash, check);
            var l := Candidates(remote.dht, TryRefToId(reference).value, MaxPeerRetries);
            var f := FetchBlock(reference, remote, hash, check);
            var v := Scan(w, l, 0);
            && f.result == v.Outcome()
            && f.requests == ScanRequests(w, l, v)
  {
    var id := TryRefToId(reference).value;
    var l := Candidates(remote.dht, id, MaxPeerRetries);
    CandidatesPrefix(remote.dht, id, 0, MaxPeerRetries);
    assert Urls(WalkOf(reference, remote, hash, check), l[..0]) == [];
    RoundsScan(WalkOf(reference, remote, hash, check), remote.dht, id, MaxPeerRetries, 0, [], l, 0);
  }

  /** The peers the fetch of `reference` would try, in order. */
  function CandidatesFor(reference: Reference, dht: Dht): seq<Peer> {
    Candidates(dht, TryRefToId(reference).value, MaxPeerRetries)
  }

  /** A peer answering with bytes that do not hash to the reference is
      skipped, and the next peer in lookup order supplies the block. */
  lemma FallbackAfterCorruptPeer(reference: Reference, remote: Remote, hash: Hasher, bad: seq<byte>, good: seq<byte>)
    requires remote.dht.bootstrapped
    requires |CandidatesFor(reference, remote.dht)| >= 2
    requires remote.net(0, PeerToUrl(CandidatesFor(reference, remote.dht)[0], reference)) == Body(bad)
    requires remote.net(1, PeerToUrl(CandidatesFor(reference, remote.dht)[1], reference)) == Body(good)
    requires hash(bad) != reference && hash(good) == reference
    ensures FetchBlock(reference, remote, hash, true).result == Ok(good)
    ensures FetchBlock(reference, remote, hash, true).requests
            == [PeerToUrl(CandidatesFor(reference, remote.dht)[0], reference),
                PeerToUrl(CandidatesFor(reference, remote.dht)[1], reference)]
  {
    var w := WalkOf(reference, remote, hash, true);
    var l := CandidatesFor(reference, remote.dht);
    FetchFollowsCandidates(reference, remote, hash, true);
    assert Scan(w, l, 0) == Scan(w, l, 1) == Accepted(good, 1);
  }

  /** A transport error from the first peer ends the fetch with that error
      after one request, whatever the later peers would have answered. */
  lemma TransportErrorAborts(reference: Reference, remote: Remote, hash: Hasher, check: bool)
    requires remote.dht.bootstrapped
    requires |CandidatesFor(reference, remote.dht)| >= 1
    requires remote.net(0, PeerToUrl(CandidatesFor(reference, remote.dht)[0], reference)) == TransportError
    ensures FetchBlock(reference, remote, hash, check).result == Err(Reqwest)
    ensures |FetchBlock(reference, remote, hash, check).requests| == 1
  {
    var w := WalkOf(reference, remote, hash, check);
    var l := CandidatesFor(reference, remote.dht);
    FetchFollowsCandidates(reference, remote, hash, check);
    assert Scan(w, l, 0) == Aborted(0);
  }

  /** Lookups that never name a peer make the fetch give up with
      `BlockNotFound` after all three rounds, without any request. */
  lemma NoPeersNoBlock(reference: Reference, remote: Remote, hash: Hasher, check: bool)
    requires remote.dht.bootstrapped
    requires CandidatesFor(reference, remote.dht) == []
    ensures FetchBlock(reference, remote, hash, check) == Fetch(Err(BlockNotFound(NoValidBlock)), [], MaxPeerRetries)
  {
    var w := WalkOf(reference, remote, hash, check);
    FetchFollowsCandidates(reference, remote, hash, check);
    assert Scan(w, [], 0) == NoneAccepted;
  }

  /** Request `i` of a log that follows the candidate list names the block. */
  lemma RequestNamesBlock(reference: Reference, w: Walk, l: seq<Peer>, m: nat, requests: seq<string>, i: nat)
    requires w.urlOf == (p => PeerToUrl(p, reference))
    requires m <= |l| && requests == Urls(w, l[..m]) && i < m
    ensures requests[i] == PeerToUrl(l[i], reference) && UrnToRef(requests[i]) == Some(reference)
  {
    assert requests[i] == w.urlOf(l[..m][i]);
    PeerUrlNamesBlock(l[i], reference);
  }

  /** Every request of a fetch goes to a candidate peer and names the
      block being fetched in its query. */
  lemma RequestsNameBlock(reference: Reference, remote: Remote, hash: Hasher, check: bool)
    ensures var f := FetchBlock(reference, remote, hash, check);
            var l := CandidatesFor(reference, remote.dht);
            && |f.requests| <= |l|
            && forall i :: 0 <= i < |f.requests| ==>
                 f.requests[i] == PeerToUrl(l[i], reference) && UrnToRef(f.requests[i]) == Some(reference)
  {
    var f := FetchBlock(reference, remote, hash, check);
    var l := CandidatesFor(reference, remote.dht);
    if remote.dht.bootstrapped {
      var w := WalkOf(reference, remote, hash, check);
      FetchFollowsCandidates(reference, remote, hash, check);
      var v := Scan(w, l, 0);
      var m := if v.NoneAccepted? then |l| else v.at + 1;
      assert f.requests == Urls(w, l[..m]) by {
        if v.NoneAccepted? { assert l[..m] == l; }
      }
      forall i | 0 <= i < |f.requests|
        ensures f.requests[i] == PeerToUrl(l[i], reference) && UrnToRef(f.requests[i]) == Some(reference)
      {
        RequestNamesBlock(reference, w, l, m, f.requests, i);
      }
    }
  }
}

=== FILE: http.dfy ===
/** The slice of HTTP the daemon's handlers touch: header values, status
    codes and response bodies. */
module Http {
  import opened Wrappers
  import opened Bytes

  /** A raw header value: bytes, not necessarily text. */
  type HeaderValue = seq<byte>

  const StatusOk: nat := 200
  const StatusCreated: nat := 201
  const StatusUnauthorized: nat := 401
  const StatusNotFound: nat := 404
  const StatusUnsupportedMediaType: nat := 415
  const StatusUnprocessableEntity: nat := 422

  /** A JSON document, represented by its serialisation. */
  datatype Json = Json(text: seq<byte>)

  datatype Payload = NoBody | Text(message: string) | Raw(bytes: seq<byte>) | JsonDoc(doc: Json)

  datatype Response = Response(status: nat, payload: Payload)

  /** The byte `HeaderValue::to_str` accepts: visible ASCII or tab. */
  predicate VisibleAscii(b: byte) {
    b == 9 || (32 <= b < 127)
  }

  predicate AllVisible(h: HeaderValue) {
    forall k :: 0 <= k < |h| ==> VisibleAscii(h[k])
  }

  /** The characters whose codes are the bytes of `h`. */
  function TextOf(h: HeaderValue): (s: string)
    ensures |s| == |h|
    ensures forall k :: 0 <= k < |h| ==> s[k] as int == h[k] as int
  {
    if |h| == 0 then [] else [h[0] as int as char] + TextOf(h[1..])
  }

  /** `HeaderValue::to_str`: the value as text if every byte is visible ASCII. */
  function HeaderToStr(h: HeaderValue): (r: Option<string>)
    ensures r.Some? <==> AllVisible(h)
    ensures r.Some? ==> r.value == TextOf(h)
  {
    if AllVisible(h) then Some(TextOf(h)) else None
  }
}

=== FILE: server.dfy ===
/** The authorization middleware and the route table of the daemon
    (crates/apsisd/src/main.rs). */
module Server {
  import opened Wrappers
  import opened Bytes
  import opened Text
  import opened Http
  import Utils

  /** `subtle`'s slice comparison: unequal lengths compare unequal at once;
      otherwise a flag starts at 1 and is ANDed with each byte pair's
      equality, so every pair is looked at. */
  function CtEq(a: seq<byte>, b: seq<byte>): bool {
    if |a| != |b| then false else CtEqFold(a, b, 0, 1) == 1
  }

  function CtEqFold(a: seq<byte>, b: seq<byte>, i: nat, acc: nat): nat
    requires |a| == |b| && i <= |a|
    decreases |a| - i
  {
    if i == |a| then acc
    else CtEqFold(a, b, i + 1, if a[i] == b[i] then acc else 0)
  }

  lemma {:induction false} CtEqFoldMeaning(a: seq<byte>, b: seq<byte>, i: nat, acc: nat)
    requires |a| == |b| && i <= |a| && acc <= 1
    ensures CtEqFold(a, b, i, acc) == 1 <==> acc == 1 && a[i..] == b[i..]
    decreases |a| - i
  {
    if i < |a| {
      CtEqFoldMeaning(a, b, i + 1, if a[i] == b[i] then acc else 0);
      assert a[i..] == [a[i]] + a[i + 1..];
      assert b[i..] == [b[i]] + b[i + 1..];
    }
  }

  /** The constant-time comparison decides plain equality. */
  lemma CtEqIsEquality(a: seq<byte>, b: seq<byte>)
    ensures CtEq(a, b) <==> a == b
  {
    if |a| == |b| {
      CtEqFoldMeaning(a, b, 0, 1);
      assert a[0..] == a && b[0..] == b;
    }
  }

  datatype Decision = Pass | Reject(status: nat)

  /** The only URIs the middleware checks. */
  predicate Guarded(uri: string) {
    uri == "/content" || uri == "/content/"
  }

  /** `authenticate`: `token` is the UTF-8 encoding of the configured token. */
  function Authenticate(uri: string, authorization: Option<HeaderValue>, token: seq<byte>): (d: Decision)
    ensures !Guarded(uri) ==> d == Pass
    ensures Guarded(uri) ==>
              (d == Pass <==> authorization.Some? && AllVisible(authorization.value) && authorization.value == token)
    ensures d != Pass ==> d == Reject(StatusUnauthorized)
  {
    if !Guarded(uri) then Pass
    else
      match authorization
      case None => Reject(StatusUnauthorized)
      case Some(h) =>
        match HeaderToStr(h)
        case None => Reject(StatusUnauthorized)
        case Some(_) =>
          CtEqIsEquality(h, token);
          if CtEq(h, token) then Pass else Reject(StatusUnauthorized)
  }

  /** A configured token with a byte `to_str` refuses can never be presented,
      so every guarded request is refused. */
  lemma UnpresentableTokenLocksOut(uri: string, authorization: Option<HeaderValue>, token: seq<byte>, k: nat)
    requires Guarded(uri)
    requires k < |token| && !VisibleAscii(token[k])
    ensures Authenticate(uri, authorization, token) == Reject(StatusUnauthorized)
  {
  }

  /** Request methods; those the router does not name are told apart by name. */
  datatype Verb = Get | Head | Post | OtherMethod(name: string)

  datatype Handler = NameToResourceHandler | ResourceToNameHandler

  const R2NRoute: string := "/uri-res/R2N"

  /** What the router makes of a method and a path: no route for the path,
      a route whose method router has no handler for the method (405), or a
      handler. */
  datatype Routing = NoRoute | WrongMethod | To(handler: Handler)

  /** The router: `get` on the name-to-resource path, which also answers
      HEAD, and `post` on the resource-to-name path. */
  function Route(verb: Verb, path: string): (r: Routing)
    ensures r == To(NameToResourceHandler) <==> path == Utils.N2RPath && (verb == Get || verb == Head)
    ensures r == To(ResourceToNameHandler) <==> path == R2NRoute && verb == Post
    ensures r == NoRoute <==> path != Utils.N2RPath && path != R2NRoute
  {
    if path == Utils.N2RPath then
      if verb == Get || verb == Head then To(NameToResourceHandler) else WrongMethod
    else if path == R2NRoute then
      if verb == Post then To(ResourceToNameHandler) else WrongMethod
    else NoRoute
  }

  /** The GET a fetching peer sends to the raw-block path reaches
      `name_to_resource` on the receiving node. */
  lemma PeerRequestsReachHandler()
    ensures Route(Get, Utils.N2RPath) == To(NameToResourceHandler)
  {
  }

  datatype Request = Request(verb: Verb, path: string, query: Option<string>, authorization: Option<HeaderValue>)

  /** The request target as text: the path, then '?' and the query if any. */
  function UriText(req: Request): (u: string)
    ensures StartsWith(u, req.path)
  {
    match req.query
    case None => req.path
    case Some(q) => req.path + "?" + q
  }

  /** What happens to a request: no route matches its path (404), the
      middleware refuses it, its route has no handler for the method (405),
      or it reaches a handler. */
  datatype Admission = Unrouted | Refused(status: nat) | NotAllowed | Handled(handler: Handler)

  /** The router with the middleware as a route layer: the layer wraps each
      route's method router, 405 fallback included, so it runs for every
      request whose path is routed and for no other. */
  function Admit(req: Request, token: seq<byte>): (a: Admission)
    ensures a.Unrouted? <==> Route(req.verb, req.path).NoRoute?
    ensures a.Handled? <==> Route(req.verb, req.path).To?
                            && Authenticate(UriText(req), req.authorization, token) == Pass
    ensures a.NotAllowed? <==> Route(req.verb, req.path).WrongMethod?
                               && Authenticate(UriText(req), req.authorization, token) == Pass
    ensures a.Handled? ==> a.handler == Route(req.verb, req.path).handler
    ensures a.Refused? ==> a.status == StatusUnauthorized
  {
    match Route(req.verb, req.path)
    case NoRoute => Unrouted
    case WrongMethod =>
      (match Authenticate(UriText(req), req.authorization, token)
       case Reject(status) => Refused(status)
       case Pass => NotAllowed)
    case To(h) =>
      (match Authenticate(UriText(req), req.authorization, token)
       case Reject(status) => Refused(status)
       case Pass => Handled(h))
  }

  /** Neither routed path is a guarded URI, so every request on a routed
      path gets past the middleware whatever its Authorization header and
      the token: to its handler, or to 405 for another method. */
  lemma RoutesAreUnguarded(req: Request, token: seq<byte>)
    requires !Route(req.verb, req.path).NoRoute?
    ensures !Guarded(UriText(req))
    ensures Admit(req, token) == (match Route(req.verb, req.path)
                                  case To(h) => Handled(h)
                                  case _ => NotAllowed)
  {
    var u := UriText(req);
    assert req.path[1] == 'u';
    assert u[1] == req.path[1];
  }
}

=== FILE: store.dfy ===
/** The block store (crates/apsisd/src/db.rs): a key-value map from
    references to block bytes. Whether the underlying database fails a read
    or a write is an input of the model. */
module Store {
  import opened Wrappers
  import opened Errors
  import opened Bytes
  import opened Utils

  /** The database: the stored blocks, whether reads fail, and for writes
      the number of attempts so far and which attempts, counted from 0,
      fail. Each `put` can fail on its own, so a sequence of writes can
      stop part way. */
  datatype Db = Db(blocks: map<Reference, seq<byte>>, readFault: bool, writes: nat, failingWrites: set<nat>)

  /** Whether the next write attempt fails. */
  predicate NextWriteFails(db: Db) {
    db.writes in db.failingWrites
  }

  /** `Db::read_block`: the stored block, `None` if absent, or a database error. */
  function ReadBlock(db: Db, reference: Reference): (r: Result<Option<seq<byte>>, ErrorKind>)
    ensures r.Err? <==> db.readFault
    ensures r.Err? ==> r.error == RocksDb
    ensures r.Ok? ==> (r.value.Some? <==> reference in db.blocks)
    ensures r.Ok? && r.value.Some? ==> r.value.value == db.blocks[reference]
  {
    if db.readFault then Err(RocksDb)
    else if reference in db.blocks then Ok(Some(db.blocks[reference]))
    else Ok(None)
  }

  /** `Db::write_block`: stores the block and reports its length. Every
      attempt is counted, failed or not. */
  function WriteBlock(db: Db, reference: Reference, block: seq<byte>): (r: (Result<nat, ErrorKind>, Db))
    ensures r.0.Ok? <==> !NextWriteFails(db)
    ensures r.0.Ok? ==> r.0.value == |block| && r.1.blocks == db.blocks[reference := block]
    ensures r.0.Err? ==> r.0.error == RocksDb && r.1.blocks == db.blocks
    ensures r.1.writes == db.writes + 1
    ensures r.1.readFault == db.readFault && r.1.failingWrites == db.failingWrites
  {
    var db' := db.(writes := db.writes + 1);
    if NextWriteFails(db) then (Err(RocksDb), db')
    else (Ok(|block|), db'.(blocks := db.blocks[reference := block]))
  }

  /** A successful write is seen by the next read, and leaves every other
      reference as it was. */
  lemma ReadYourWrite(db: Db, reference: Reference, block: seq<byte>, other: Reference)
    requires !NextWriteFails(db) && !db.readFault
    ensures ReadBlock(WriteBlock(db, reference, block).1, reference) == Ok(Some(block))
    ensures other != reference ==> ReadBlock(WriteBlock(db, reference, block).1, other) == ReadBlock(db, other)
  {
  }
}

=== FILE: text.dfy ===
/** String helpers with the meaning of the Rust standard-library calls the
    daemon makes: `starts_with`, `split_once`, `Display` of integers. */
module Text {
  import opened Wrappers

  predicate StartsWith(s: string, prefix: string) {
    |prefix| <= |s| && s[..|prefix|] == prefix
  }

  /** `pat` occurs in `s` starting at index `i`. */
  predicate OccursAt(s: string, pat: string, i: nat) {
    i + |pat| <= |s| && s[i..i + |pat|] == pat
  }

  /** The first index at or after `from` where `pat` occurs. */
  function FindFrom(s: string, pat: string, from: nat): (r: Option<nat>)
    requires from <= |s|
    ensures r.Some? ==> from <= r.value && OccursAt(s, pat, r.value)
    ensures r.Some? ==> forall k :: from <= k < r.value ==> !OccursAt(s, pat, k)
    ensures r.None? ==> forall k :: from <= k <= |s| ==> !OccursAt(s, pat, k)
    decreases |s| - from
  {
    if OccursAt(s, pat, from) then Some(from)
    else if from == |s| then None
    else FindFrom(s, pat, from + 1)
  }

  function FindFirst(s: string, pat: string): (r: Option<nat>)
    ensures r.Some? ==> OccursAt(s, pat, r.value)
    ensures r.Some? ==> forall k :: 0 <= k < r.value ==> !OccursAt(s, pat, k)
    ensures r.None? ==> forall k :: 0 <= k <= |s| ==> !OccursAt(s, pat, k)
  {
    FindFrom(s, pat, 0)
  }

  /** `str::split_once`: the text before and after the first occurrence. */
  function SplitOnce(s: string, pat: string): (r: Option<(string, string)>)
    ensures r.None? <==> forall k :: 0 <= k <= |s| ==> !OccursAt(s, pat, k)
    ensures r.Some? ==> s == r.value.0 + pat + r.value.1
    ensures r.Some? ==> forall k :: 0 <= k < |r.value.0| ==> !OccursAt(s, pat, k)
  {
    match FindFirst(s, pat)
    case None => None
    case Some(i) =>
      assert s == s[..i] + pat + s[i + |pat|..];
      Some((s[..i], s[i + |pat|..]))
  }

  /** `s` has no character `c`. */
  predicate Lacks(s: string, c: char) {
    forall k :: 0 <= k < |s| ==> s[k] != c
  }

  lemma LacksConcat(a: string, b: string, c: char)
    requires Lacks(a, c) && Lacks(b, c)
    ensures Lacks(a + b, c)
  {
  }

  /** A one-character pattern occurs exactly where that character is. */
  lemma OccursAtChar(s: string, c: char, k: nat)
    requires k < |s|
    ensures OccursAt(s, [c], k) <==> s[k] == c
  {
    assert s[k..k + 1] == [s[k]];
  }

  /** A pattern cannot occur in a string that lacks one of its characters. */
  lemma LacksNoOccurrence(s: string, pat: string, j: nat)
    requires j < |pat| && Lacks(s, pat[j])
    ensures forall k :: 0 <= k <= |s| ==> !OccursAt(s, pat, k)
  {
    forall k | 0 <= k <= |s|
      ensures !OccursAt(s, pat, k)
    {
      if k + |pat| <= |s| {
        assert s[k..k + |pat|][j] == s[k + j] != pat[j];
      }
    }
  }

  predicate IsDigit(c: char) {
    '0' <= c <= '9'
  }

  function DigitChar(d: nat): (c: char)
    requires d < 10
    ensures IsDigit(c)
  {
    ('0' as int + d) as char
  }

  /** Decimal rendering of a natural number, as Rust's `Display` writes it:
      no sign, no leading zeros, "0" for zero. */
  function Decimal(n: nat): (s: string)
    ensures |s| >= 1
    ensures forall k :: 0 <= k < |s| ==> IsDigit(s[k])
    ensures (|s| > 1) ==> s[0] != '0'
  {
    if n < 10 then [DigitChar(n)] else Decimal(n / 10) + [DigitChar(n % 10)]
  }

  function DigitValue(c: char): nat
    requires IsDigit(c)
  {
    c as int - '0' as int
  }

  /** Reads a string of digits back as a number. */
  function ParseDecimal(s: string): (n: nat)
    requires forall k :: 0 <= k < |s| ==> IsDigit(s[k])
  {
    if |s| == 0 then 0 else 10 * ParseDecimal(s[..|s| - 1]) + DigitValue(s[|s| - 1])
  }

  lemma {:induction false} DecimalRoundTrip(n: nat)
    ensures ParseDecimal(Decimal(n)) == n
  {
    if n >= 10 {
      var s := Decimal(n);
      assert s[..|s| - 1] == Decimal(n / 10);
      DecimalRoundTrip(n / 10);
    }
  }

  /** The length of the run of digits a string starts with. */
  function LeadingDigits(s: string): (n: nat)
    ensures n <= |s|
  {
    if |s| == 0 || !IsDigit(s[0]) then 0 else 1 + LeadingDigits(s[1..])
  }

  /** A digit string followed by a non-digit is read off as exactly that run. */
  lemma {:induction false} LeadingDigitsOf(x: string, r: string)
    requires forall k :: 0 <= k < |x| ==> IsDigit(x[k])
    requires |r| > 0 && !IsDigit(r[0])
    ensures LeadingDigits(x + r) == |x|
  {
    if |x| > 0 {
      assert (x + r)[1..] == x[1..] + r;
      LeadingDigitsOf(x[1..], r);
    }
  }

  /** Decimal text ended by a non-digit can be split off unambiguously:
      equal texts give equal numbers and equal remainders. */
  lemma DecimalSplit(a: nat, b: nat, r: string, r': string)
    requires |r| > 0 && !IsDigit(r[0]) && |r'| > 0 && !IsDigit(r'[0])
    requires Decimal(a) + r == Decimal(b) + r'
    ensures a == b && r == r'
  {
    var x, y := Decimal(a), Decimal(b);
    LeadingDigitsOf(x, r);
    LeadingDigitsOf(y, r');
    assert x == (x + r)[..|x|] == (y + r')[..|y|] == y;
    DecimalRoundTrip(a);
    DecimalRoundTrip(b);
    assert r == (x + r)[|x|..];
    assert r' == (y + r')[|y|..];
  }
}

=== FILE: utils.dfy ===
/** The block-reference helpers of the daemon (crates/apsisd/src/utils.rs):
    references, Mainline DHT ids, the raw-block URN and peer URLs. */
module Utils {
  import opened Wrappers
  import opened Errors
  import opened Bytes
  import opened Text
  import Base32

  /** An ERIS block reference: the 32-byte BLAKE2b-256 hash of a block. */
  type Reference = r: seq<byte> | |r| == 32 witness seq(32, _ => 0)

  /** A BitTorrent Mainline DHT id (BEP 5): 160 bits. */
  datatype Id = Id(bytes: seq<byte>)

  const IdLength: nat := 20

  /** `Id::from_bytes`: only a slice of exactly 20 bytes is an id. */
  function IdFromBytes(bytes: seq<byte>): (r: Result<Id, ErrorKind>)
    ensures r.Ok? <==> |bytes| == IdLength
    ensures r.Ok? ==> r.value.bytes == bytes
    ensures r.Err? ==> r.error == MainlineId
  {
    if |bytes| == IdLength then Ok(Id(bytes)) else Err(MainlineId)
  }

  /** `try_ref_to_id`: the DHT id under which a block is announced and looked up. */
  function TryRefToId(reference: Reference): (r: Result<Id, ErrorKind>)
    ensures r.Ok?
    ensures r.value.bytes == reference[..IdLength]
  {
    IdFromBytes(reference[..IdLength])
  }

  /** Two references share a DHT id exactly when their first 20 bytes agree. */
  lemma SameIdIffSamePrefix(a: Reference, b: Reference)
    ensures TryRefToId(a) == TryRefToId(b) <==> a[..IdLength] == b[..IdLength]
  {
  }

  const UrnPrefix: string := "urn:"

  /** Base32 symbols in the URN of a 32-byte reference: ceil(256 / 5). */
  const UrnSymbols: nat := 52

  /** `ref_to_urn`: "urn:" and the unpadded base32 of the reference. */
  function RefToUrn(reference: Reference): (urn: string)
    ensures |urn| == |UrnPrefix| + UrnSymbols
    ensures StartsWith(urn, UrnPrefix)
    ensures Base32.AllSymbols(urn[|UrnPrefix|..])
  {
    var urn := UrnPrefix + Base32.Encode(reference);
    assert urn[|UrnPrefix|..] == Base32.Encode(reference);
    urn
  }

  /** A base32 text of `n` symbols decodes to 32 bytes exactly when `n` is 52. */
  lemma DecodedLengthIs32(n: nat)
    ensures n * 5 / 8 == 32 <==> n == UrnSymbols
  {
    if n < UrnSymbols {
      assert n * 5 <= 255;
    } else if n > UrnSymbols {
      assert n * 5 >= 265;
    }
  }

  /** `urn_to_ref`: everything up to and including the first "urn:" is
      dropped, the rest must be unpadded base32 of exactly 32 bytes. */
  function UrnToRef(urn: string): (r: Option<Reference>)
    ensures SplitOnce(urn, UrnPrefix).None? ==> r.None?
    ensures SplitOnce(urn, UrnPrefix).Some? ==>
              var rest := SplitOnce(urn, UrnPrefix).value.1;
              (r.Some? <==> Base32.AllSymbols(rest) && |rest| == UrnSymbols)
    ensures r.Some? ==> Base32.Decode(SplitOnce(urn, UrnPrefix).value.1) == Some(r.value)
  {
    match SplitOnce(urn, UrnPrefix)
    case None => None
    case Some((_, rest)) =>
      DecodedLengthIs32(|rest|);
      match Base32.Decode(rest)
      case None => None
      case Some(bytes) => if |bytes| == 32 then Some(bytes) else None
  }

  /** Decoding the URN of a reference gives the reference back. */
  lemma UrnRoundTrip(reference: Reference)
    ensures UrnToRef(RefToUrn(reference)) == Some(reference)
  {
    var urn := RefToUrn(reference);
    assert OccursAt(urn, UrnPrefix, 0);
    assert SplitOnce(urn, UrnPrefix).value.1 == Base32.Encode(reference);
    Base32.RoundTrip(reference);
  }

  /** Text before the first "urn:" does not affect the result. */
  lemma UrnIgnoresLeadingText(lead: string, rest: string)
    requires forall k :: 0 <= k <= |lead| ==> !OccursAt(lead, UrnPrefix, k)
    ensures UrnToRef(lead + UrnPrefix + rest) == UrnToRef(UrnPrefix + rest)
  {
    var s := lead + UrnPrefix + rest;
    var n := |lead|;
    forall k | 0 <= k < n
      ensures !OccursAt(s, UrnPrefix, k)
    {
      if k + 4 <= n {
        assert s[k..k + 4] == lead[k..k + 4];
        assert !OccursAt(lead, UrnPrefix, k);
      } else if k + 4 <= |s| {
        // The occurrence would overlap the "urn:" at n, and no proper suffix
        // of "urn:" starts with 'u'.
        assert s[k..k + 4][n - k] == s[n] == 'u';
      }
    }
    assert OccursAt(s, UrnPrefix, n);
    assert s[n + 4..] == rest;
    var t := UrnPrefix + rest;
    assert OccursAt(t, UrnPrefix, 0);
    assert t[4..] == rest;
  }

  /** Dotted-quad text of an IPv4 address, as `Ipv4Addr`'s `Display` writes it. */
  type Octets = s: seq<byte> | |s| == 4 witness [0, 0, 0, 0]

  type Port = p: nat | p < 65536

  /** A peer address returned by a DHT lookup (`SocketAddrV4`). */
  datatype Peer = Peer(ip: Octets, port: Port)

  function Ipv4Text(ip: Octets): string {
    Decimal(ip[0] as nat) + "." + Decimal(ip[1] as nat) + "."
      + Decimal(ip[2] as nat) + "." + Decimal(ip[3] as nat)
  }

  /** The path of the raw-block endpoint on every peer. */
  const N2RPath: string := "/uri-res/N2R"

  /** Scheme, authority and path of a peer's raw-block endpoint. */
  function PeerEndpoint(peer: Peer): string {
    "http://" + Ipv4Text(peer.ip) + ":" + Decimal(peer.port) + N2RPath
  }

  lemma DecimalLacks(n: nat, c: char)
    requires !IsDigit(c)
    ensures Lacks(Decimal(n), c)
  {
  }

  lemma IpLacks(ip: Octets, c: char)
    requires c == '?' || c == 'n'
    ensures Lacks(Ipv4Text(ip), c)
  {
    var d0, d1, d2, d3 := Decimal(ip[0] as nat), Decimal(ip[1] as nat), Decimal(ip[2] as nat), Decimal(ip[3] as nat);
    DecimalLacks(ip[0] as nat, c);
    DecimalLacks(ip[1] as nat, c);
    DecimalLacks(ip[2] as nat, c);
    DecimalLacks(ip[3] as nat, c);
    assert Lacks(".", c);
    LacksConcat(d0, ".", c);
    LacksConcat(d0 + ".", d1, c);
    LacksConcat(d0 + "." + d1, ".", c);
    LacksConcat(d0 + "." + d1 + ".", d2, c);
    LacksConcat(d0 + "." + d1 + "." + d2, ".", c);
    LacksConcat(d0 + "." + d1 + "." + d2 + ".", d3, c);
  }

  lemma FixedPartsLack(c: char)
    requires c == '?' || c == 'n'
    ensures Lacks("http://", c) && Lacks(":", c) && Lacks(N2RPath, c)
  {
    if c == '?' {
      assert Lacks("http://", '?') && Lacks(":", '?') && Lacks(N2RPath, '?');
    } else {
      assert Lacks("http://", 'n') && Lacks(":", 'n') && Lacks(N2RPath, 'n');
    }
  }

  /** Neither a '?' nor an 'n' appears before the query of a peer URL. */
  lemma EndpointLacks(peer: Peer, c: char)
    requires c == '?' || c == 'n'
    ensures Lacks(PeerEndpoint(peer), c)
  {
    var ipText := Ipv4Text(peer.ip);
    var port := Decimal(peer.port);
    IpLacks(peer.ip, c);
    DecimalLacks(peer.port, c);
    FixedPartsLack(c);
    LacksConcat("http://", ipText, c);
    LacksConcat("http://" + ipText, ":", c);
    LacksConcat("http://" + ipText + ":", port, c);
    LacksConcat("http://" + ipText + ":" + port, N2RPath, c);
  }

  /** `peer_to_url`: the GET request that asks `peer` for the block `block`. */
  function PeerToUrl(peer: Peer, block: Reference): (url: string)
    ensures StartsWith(url, "http://")
  {
    var url := PeerEndpoint(peer) + "?" + RefToUrn(block);
    assert url[..7] == PeerEndpoint(peer)[..7];
    url
  }

  /** Regrouping of the peer URL's concatenation, for any field texts. */
  lemma RegroupFields(d0: string, d1: string, d2: string, d3: string, port: string, path: string, urn: string)
    ensures "http://" + (d0 + "." + d1 + "." + d2 + "." + d3) + ":" + port + path + "?" + urn
            == "http://" + (d0 + ("." + (d1 + ("." + (d2 + ("." + (d3 + (":" + (port + (path + "?" + urn))))))))))
  {
    var ip := d0 + "." + d1 + "." + d2 + "." + d3;
    assert ip == d0 + ("." + (d1 + ("." + (d2 + ("." + d3)))));
    assert "http://" + ip + ":" + port + path + "?" + urn == "http://" + (ip + (":" + (port + (path + "?" + urn))));
  }

  /** The peer URL, regrouped so that each decimal field is followed by
      the rest of the text. */
  lemma PeerUrlFields(peer: Peer, block: Reference)
    ensures var tail := N2RPath + "?" + RefToUrn(block);
            PeerToUrl(peer, block)
            == "http://" + (Decimal(peer.ip[0] as nat) + ("." + (Decimal(peer.ip[1] as nat) + ("." + (Decimal(peer.ip[2] as nat)
               + ("." + (Decimal(peer.ip[3] as nat) + (":" + (Decimal(peer.port) + tail)))))))))
  {
    RegroupFields(Decimal(peer.ip[0] as nat), Decimal(peer.ip[1] as nat), Decimal(peer.ip[2] as nat),
                  Decimal(peer.ip[3] as nat), Decimal(peer.port), N2RPath, RefToUrn(block));
  }

  /** Two equal texts that start with the same non-digit character and then
      a decimal field followed by a non-digit agree on the field and the rest. */
  lemma SeparatedField(sep: char, a: nat, b: nat, r: string, r': string)
    requires !IsDigit(sep)
    requires |r| > 0 && !IsDigit(r[0]) && |r'| > 0 && !IsDigit(r'[0])
    requires [sep] + (Decimal(a) + r) == [sep] + (Decimal(b) + r')
    ensures a == b && r == r'
  {
    assert Decimal(a) + r == ([sep] + (Decimal(a) + r))[1..];
    assert Decimal(b) + r' == ([sep] + (Decimal(b) + r'))[1..];
    DecimalSplit(a, b, r, r');
  }

  /** A peer URL names its peer and its block: different peers, or
      different blocks, are never asked at the same URL. */
  lemma PeerToUrlInjective(p: Peer, q: Peer, b: Reference, c: Reference)
    requires PeerToUrl(p, b) == PeerToUrl(q, c)
    ensures p == q && b == c
  {
    assert b == c by {
      PeerUrlNamesBlock(p, b);
      PeerUrlNamesBlock(q, c);
    }
    var tail := N2RPath + "?" + RefToUrn(b);
    var sp, sq := Decimal(p.port) + tail, Decimal(q.port) + tail;
    var r3p, r3q := ":" + sp, ":" + sq;
    var r2p, r2q := "." + (Decimal(p.ip[3] as nat) + r3p), "." + (Decimal(q.ip[3] as nat) + r3q);
    var r1p, r1q := "." + (Decimal(p.ip[2] as nat) + r2p), "." + (Decimal(q.ip[2] as nat) + r2q);
    var r0p, r0q := "." + (Decimal(p.ip[1] as nat) + r1p), "." + (Decimal(q.ip[1] as nat) + r1q);
    var up, uq := Decimal(p.ip[0] as nat) + r0p, Decimal(q.ip[0] as nat) + r0q;
    assert up == uq by {
      PeerUrlFields(p, b);
      PeerUrlFields(q, c);
      assert up == ("http://" + up)[7..];
      assert uq == ("http://" + uq)[7..];
    }
    assert p.ip[0] == q.ip[0] && r0p == r0q by {
      DecimalSplit(p.ip[0] as nat, q.ip[0] as nat, r0p, r0q);
    }
    assert p.ip[1] == q.ip[1] && r1p == r1q by {
      SeparatedField('.', p.ip[1] as nat, q.ip[1] as nat, r1p, r1q);
    }
    assert p.ip[2] == q.ip[2] && r2p == r2q by {
      SeparatedField('.', p.ip[2] as nat, q.ip[2] as nat, r2p, r2q);
    }
    assert p.ip[3] == q.ip[3] && r3p == r3q by {
      SeparatedField('.', p.ip[3] as nat, q.ip[3] as nat, r3p, r3q);
    }
    assert p.port == q.port by {
      assert tail[0] == '/';
      SeparatedField(':', p.port, q.port, tail, tail);
    }
    assert p.ip == q.ip by {
      assert forall i :: 0 <= i < 4 ==> p.ip[i] == q.ip[i];
    }
  }

  /** The query of a URL: the text after its first '?', as `Uri::query` sees it. */
  function QueryOf(url: string): (q: Option<string>)
    ensures q.Some? <==> !Lacks(url, '?')
  {
    match SplitOnce(url, "?")
    case None =>
      forall k | 0 <= k < |url|
        ensures url[k] != '?'
      {
        OccursAtChar(url, '?', k);
      }
      None
    case Some((before, q)) =>
      assert url[|before|] == '?';
      Some(q)
  }

  /** The request a peer receives carries exactly the block's URN as its
      query, and that URN names the block. */
  lemma PeerUrlNamesBlock(peer: Peer, block: Reference)
    ensures QueryOf(PeerToUrl(peer, block)) == Some(RefToUrn(block))
    ensures UrnToRef(PeerToUrl(peer, block)) == Some(block)
  {
    var base := PeerEndpoint(peer);
    var urn := RefToUrn(block);
    var url := PeerToUrl(peer, block);
    EndpointLacks(peer, '?');
    EndpointLacks(peer, 'n');
    assert url == base + "?" + urn;
    LacksNoOccurrence(base, "?", 0);
    assert forall k :: 0 <= k < |base| ==> !OccursAt(url, "?", k) by {
      forall k | 0 <= k < |base|
        ensures !OccursAt(url, "?", k)
      {
        assert url[k..k + 1] == [base[k]];
      }
    }
    assert OccursAt(url, "?", |base|);
    assert url[|base| + 1..] == urn;
    LacksConcat(base, "?", 'n');
    LacksNoOccurrence(base + "?", UrnPrefix, 2);
    assert urn == UrnPrefix + urn[4..];
    assert url == (base + "?") + UrnPrefix + urn[4..];
    UrnIgnoresLeadingText(base + "?", urn[4..]);
    UrnRoundTrip(block);
  }
}

=== FILE: wrappers.dfy ===
/** Failure-carrying return types shared by every module of the model. */
module Wrappers {

  /** Rust's `Option<T>`. */
  datatype Option<+T> = None | Some(value: T)

  /** Rust's `Result<T, E>`. */
  datatype Result<+T, +E> = Ok(value: T) | Err(error: E)
}
